=== FILE: README.md ===
# User management API — a Dafny model of validation and the user-table handlers

This project models the two parts of the user-management backend that carry
logic:

- **the validators** (`utils/validators.js`): `isNonEmptyString`,
  `normalizeMobile`, `normalizePAN`, and the first-failure-wins
  `validateCreatePayload` and `validateUpdateData`;
- **the user-table handlers** (`controllers/userController.js`): `createUser`,
  `getUsers`, `deleteUser` and `updateUser`. Each is a pure function of the
  `users` table and the request, plus the `managers` map for `createUser` and
  `updateUser`. `getUsers` returns only a reply; the other three return a new
  table and a reply.

The `users` table is a sequence of rows with the columns of `db/db.js:20-31`,
kept in insertion order. `user_id` is not a key: one user can have many rows
over time, and the history scheme keeps at most one of them active.
`updateUser` has three branches:

- **bulk reassignment**: `update_data` is exactly `{manager_id}`;
- **history fork**: the requested manager differs from the user's active row.
  The user's rows are deactivated and a successor row is appended;
- **in-place edit**: otherwise.

Its loop over `user_ids` stops at the first id that fails.

Modules, one per file:

| module | file | contents |
|---|---|---|
| `Wrappers` | wrappers.dfy | `Option`, `Result` |
| `Text` | text.dfy | JavaScript `trim`, `toUpperCase`, `\s`, `\D` and `^prefix` replacement on strings, with their lemmas |
| `Json` | json.dfy | the values a handler sees in a parsed JSON body: `undefined`, strings, anything else with its truthiness and `String()` form |
| `Validators` | validators.dfy | `utils/validators.js` |
| `Users` | users.dfy | rows, the table, active-row counting, and the SELECT/DELETE/UPDATE statements as table functions |
| `UserController` | user_controller.dfy | the four handlers |
| `UpdateProperties` | update_properties.dfy | what one id of the `updateUser` loop does, and how the loop composes |
| `Invariants` | invariants.dfy | what the write handlers keep true of the table, and whole-request `updateUser` scenarios |

Two invariants are proved for every write handler:

- `AtMostOneActive`: each `user_id` has at most one active row.
- `WellFormed`: every stored name is trimmed and non-blank, and every stored
  mobile and PAN is in normal form.

`WellFormed` also shows that the fork branch's late 400s, which the source
issues after it has already deactivated the old rows, cannot fire on a table
the handlers built.

Behaviour worth knowing, read from the code:

- **Bulk reassignment updates inactive rows too.** The statement at
  `controllers/userController.js:110` has no `is_active` filter. Listed ids
  without any row are ignored silently.
- **An empty `update_data` is accepted.** `validateUpdateData({})` passes. The
  loop then only checks that every listed id has an active row and changes
  nothing (`Invariants.EmptyUpdate`).
- **A manager-only request never forks.** `update_data = {manager_id: M2}`
  always takes bulk reassignment. A fork needs a second key, such as
  `full_name` (`Invariants.ManagerAndNameUpdate`).
- **The fork deactivates every row of the user.** The statement at
  `controllers/userController.js:124` matches every row of the user, not just
  the active one. The successor inherits `created_at` from the active row it
  replaces.

## Model

| member | source | states |
|---|---|---|
| Validators.IsNonEmptyString | utils/validators.js:3-5 | accepts exactly the strings holding a non-whitespace character; every non-string is rejected |
| Validators.TrimmedNameValid | utils/validators.js:3-5 | the trim of an accepted string is accepted again |
| Text.Trim | utils/validators.js:3-5 | `trim()` never lengthens the string, and its result is empty or starts and ends with a non-whitespace character |
| Text.TrimStart | utils/validators.js:4 | the start of `trim()`: drops exactly the leading whitespace, leaving a suffix that is empty or begins with a non-whitespace character |
| Text.TrimEnd | utils/validators.js:4 | the end of `trim()`: drops exactly the trailing whitespace, leaving a prefix that is empty or ends with a non-whitespace character |
| Text.TrimPadded | utils/validators.js:15 | whitespace added around a string does not change its trim |
| Text.TrimIdempotent | utils/validators.js:15 | trimming twice is trimming once |
| Text.TrimUpper | utils/validators.js:15 | trimming and upper-casing commute, so `.trim().toUpperCase()` has no order dependency |
| Text.Upper | utils/validators.js:15 | `toUpperCase()` keeps the length and maps each ASCII lower-case letter to its upper-case form, leaving other characters alone |
| Text.UpperIdempotent | utils/validators.js:15 | upper-casing twice is upper-casing once |
| Text.RemoveWhitespace | utils/validators.js:9 | `replace(/\s+/g, '')` leaves no whitespace and never lengthens the string |
| Text.RemoveWhitespaceAppend | utils/validators.js:9 | removing whitespace from a concatenation removes it from each part |
| Text.RemoveAllWhitespace | utils/validators.js:9 | a run of whitespace is deleted outright rather than replaced, so together with `RemoveWhitespaceAppend` and `RemoveWhitespaceNoop` every non-whitespace character survives, in order |
| Text.KeepDigits | utils/validators.js:9 | `replace(/\D/g, '')` leaves only ASCII digits, and never lengthens the string |
| Text.KeepDigitsAppend | utils/validators.js:9 | keeping the digits of a concatenation keeps the digits of each part, so every digit of the input survives in order |
| Text.KeepDigitsOfNoDigits | utils/validators.js:9 | a text without digits leaves nothing, with or without whitespace removal first |
| Text.StripPrefix | utils/validators.js:9 | `replace(/^\+91/, '')` and `replace(/^0/, '')` remove their prefix exactly when the string starts with it, and leave it unchanged otherwise |
| Text.TrimEmptyIff | utils/validators.js:4 | `trim()` gives the empty string exactly when the input is all whitespace |
| Validators.NormalizeMobile | utils/validators.js:7-11 | a falsy input gives null; any other result is exactly ten ASCII digits |
| Validators.NormalizeMobileText | utils/validators.js:9-10 | the result, when there is one, is exactly ten ASCII digits |
| Validators.MobileAcceptsBare | utils/validators.js:9-10 | ten digits not starting with 0 normalise to themselves |
| Validators.MobileAcceptsCountryCode | utils/validators.js:9-10 | `+91` followed by such digits normalises to the digits |
| Validators.MobileAcceptsSpacedCountryCode | utils/validators.js:9-10 | `+91 ` (with a space) followed by such digits normalises to the digits |
| Validators.MobileIgnoresWhitespace | utils/validators.js:9 | deleting a run of whitespace from anywhere in the input does not change the result |
| Validators.MobileIgnoresSeparators | utils/validators.js:9-10 | digit groups joined by any digit-free separator normalise to the digits alone, when the first digit is not 0 |
| Validators.MobileSeparatorExample | utils/validators.js:9-10 | `98765-43210` gives `9876543210` |
| Validators.MobileAcceptsTrunkPrefix | utils/validators.js:9-10 | `0` followed by any ten digits normalises to those digits |
| Validators.MobileRejectsLeadingZero | utils/validators.js:9-10 | ten digits starting with 0 are rejected, because the leading 0 is stripped first |
| Validators.MobileIdempotent | utils/validators.js:7-11 | a normalised mobile not starting with 0 normalises to itself |
| Validators.MobileNotIdempotentWithLeadingZero | utils/validators.js:7-11 | `00123456789` normalises to `0123456789`, which is itself rejected |
| Validators.MobileExamples | utils/validators.js:7-11 | `+91 9876543210`, `09876543210` and `9876543210` all give `9876543210`; `12345` gives null |
| Validators.ShortMobileRejected | utils/validators.js:9-10 | every string of five digits is rejected, with or without a leading 0 |
| Validators.NormalizePan | utils/validators.js:13-17 | a falsy input gives null; any other result has five upper-case letters, four digits and one upper-case letter |
| Validators.NormalizePanText | utils/validators.js:15-16 | the result, when there is one, has the PAN shape |
| Validators.PanIdempotent | utils/validators.js:13-17 | normalising a normalised PAN gives it back |
| Validators.PanTextFixedPoint | utils/validators.js:15-16 | a string of the PAN shape passes the trim, upper-case and pattern check unchanged |
| Validators.PanFixedPoint | utils/validators.js:13-17 | a string already of the PAN shape normalises to itself |
| Validators.PanIsTrimmed | utils/validators.js:15 | a string of the PAN shape has no surrounding whitespace to trim |
| Validators.PanIsUpper | utils/validators.js:15 | a string of the PAN shape is unchanged by upper-casing |
| Validators.PanIgnoresCase | utils/validators.js:15 | inputs that upper-case to the same text normalise alike |
| Validators.PanIgnoresPadding | utils/validators.js:15 | surrounding whitespace does not change the result |
| Validators.PanOfUpperCased | utils/validators.js:15-16 | an input that upper-cases letter by letter to a PAN normalises to that PAN |
| Validators.PanLowerCaseExample | utils/validators.js:15-16 | `abcde1234f` normalises to `ABCDE1234F` |
| Validators.PanExamples | utils/validators.js:13-17 | `abcde1234f` and ` abcde1234f ` both give `ABCDE1234F` |
| Validators.PanRejectExample | utils/validators.js:16 | `ABCDE12345` is rejected |
| Validators.PanRejectsDigitLast | utils/validators.js:16 | an input that ends in a digit after trimming is rejected |
| Validators.IsValidUuid | utils/validators.js:19-21 | a non-string is never a valid UUID; a string is one exactly when the UUID check accepts it |
| Validators.FirstFailure | utils/validators.js:23-42 | no message exactly when every check passes; otherwise the message of the first failing check |
| Validators.ValidateCreatePayload | utils/validators.js:23-33 | null exactly when the payload is an object and the name, mobile, PAN and manager id checks all pass |
| Validators.CreatePayloadFirstFailure | utils/validators.js:23-33 | the message is that of the first failing check in the order object, full_name, mob_num, pan_num, manager_id |
| Validators.ValidateUpdateData | utils/validators.js:35-42 | null exactly when the data is an object and every present field passes its check; the empty object passes |
| Validators.UpdateDataFirstFailure | utils/validators.js:35-42 | the message is that of the first failing check in the order object, full_name, mob_num, pan_num, manager_id |
| Users.ManagerActive | controllers/userController.js:15-16 | a manager is found only when its row exists and is active; an unknown id is never found |
| Users.FirstActive | controllers/userController.js:116 | finds the first active row of the user, and finds none exactly when the user has no active row |
| Users.ActiveCountZero | controllers/userController.js:116-117 | a user has no active row exactly when no row of the table is an active row of that user |
| Users.SelectMembers | controllers/userController.js:39-51 | a SELECT returns exactly the rows of the table matching its filter |
| Users.RemoveMembers | controllers/userController.js:70-79 | a DELETE keeps exactly the rows not matching its filter |
| Users.Select | controllers/userController.js:39-51 | a SELECT returns every copy of each matching row the table holds, and no other row, and is never longer than the table |
| Users.Remove | controllers/userController.js:70-78 | a DELETE keeps every copy of each non-matching row and no copy of a matching one, and never lengthens the table |
| Users.SelectRemovePartition | controllers/userController.js:70-79 | the rows a DELETE removes and the rows it keeps together make up the table |
| Users.RemoveNothingIff | controllers/userController.js:70-79 | a DELETE changes nothing exactly when no row matches |
| Users.RemoveCounts | controllers/userController.js:70-79 | a DELETE never adds an active row |
| Users.Deactivate | controllers/userController.js:124 | every row of the user, active or not, becomes inactive with the new `updated_at`, keeping its name, mobile, PAN, manager and `created_at`; every other row is unchanged; afterwards the user has no active row and every other user keeps its active-row count |
| Users.EditActive | controllers/userController.js:164-166 | only the user's active rows change: each given column takes its new value, the others keep theirs, `updated_at` becomes the new time, and the row stays active under the same user, manager and `created_at`; every user keeps its active-row count |
| Users.Reassign | controllers/userController.js:110 | every row of a listed id, active or not, gets the new manager and `updated_at` and keeps its user, active flag, name, mobile, PAN and `created_at`; other rows are unchanged; every user keeps its active-row count |
| UserController.NewUserRow | controllers/userController.js:18-24 | the inserted row is active under the fresh id with `created_at = updated_at = now`; a valid name is stored trimmed and still valid; a mobile or PAN that normalises is stored in normal form; a string manager id is stored as given |
| UserController.CreateUser | controllers/userController.js:8-26 | fails with 400 and an unchanged table exactly when validation fails or the manager is missing or inactive; otherwise appends one active row with the fresh id, trimmed name, normalised mobile and PAN, the manager, and `created_at = updated_at` |
| UserController.GetUsers | controllers/userController.js:36-56 | the filter is `user_id`, else `mob_num`, else `manager_id`, else none; the listing holds every copy of each matching row, active or not, and no other row; the only failure is 400 for a mobile that does not normalise |
| UserController.DeleteUser | controllers/userController.js:66-81 | 400 with the table unchanged when neither key is given or the mobile does not normalise; otherwise removes every row matching `user_id` (preferred) or the normalised mobile, active or not, and keeps every copy of every other row; replies 404 "User not found" exactly when none matched, otherwise "User deleted successfully" for `user_id` and "User(s) deleted successfully" for the mobile |
| UserController.DeleteWhere | controllers/userController.js:70-73 | keeps every copy of each non-matching row and no matching row; 404 with the table unchanged exactly when nothing matched |
| UserController.UpdateUser | controllers/userController.js:94-98 | a missing or empty `user_ids`, or an `update_data` that fails validation, gives 400 with the table unchanged |
| UserController.ReadUpdate | controllers/userController.js:119-159 | each field read from `update_data` is absent exactly when undefined; mobile and PAN hold their normaliser's result |
| UserController.InPlaceEdits | controllers/userController.js:147-162 | rejects exactly a blank name, a mobile or a PAN that does not normalise, reporting the first of them in the order name, mobile, PAN; otherwise writes each given field (the name trimmed and still valid, mobile and PAN normalised) and nothing else, and writes nothing exactly when no editable field is given |
| UserController.SuccessorError | controllers/userController.js:126-132 | the successor is rejected for the first of name, mobile, PAN that is blank or null once taken from `update_data` or else inherited from the old row, and accepted exactly when none is |
| UserController.SuccessorRow | controllers/userController.js:126-138 | the successor is active under the same user id with the new manager and `updated_at = now`; each field comes from `update_data` when given and otherwise from the old row; `created_at` is inherited, or `now` when empty; an accepted successor has a valid name and non-empty mobile and PAN |
| UserController.ForkStep | controllers/userController.js:119-141 | an inactive manager stops with 400 and an unchanged table; otherwise a rejected successor stops with its 400 and leaves the user with no active row, and an accepted one is appended after the old rows and leaves the user with exactly one; other users' rows and counts never change |
| UserController.ForkSuccessor | controllers/userController.js:124-141 | every row of the user is deactivated, keeping its details, before the successor is checked; the step continues exactly when the successor is accepted, and then appends it; the user ends with one active row if it continues and none if it stops; other users are untouched |
| UserController.InPlaceStep | controllers/userController.js:144-167 | stops with 400 and an unchanged table exactly when the edits are rejected; with no editable field the table is unchanged; otherwise only the user's active rows change and every active-row count is kept |
| UserController.OnlyManagerKey | controllers/userController.js:101-103 | holding means `manager_id` is present and name, mobile and PAN are absent; an object whose only key is `manager_id` always qualifies |
| UserController.ProcessId | controllers/userController.js:116-117 | a user without an active row stops the loop with a 404 and an unchanged table; any other stop is a failure reply |
| UserController.ProcessIds | controllers/userController.js:115-170 | the loop either completes with "Update(s) completed" or fails |
| UpdateProperties.ValidatedFields | controllers/userController.js:97-98 | once `update_data` passes validation, the name, mobile and PAN the loop reads are valid |
| UpdateProperties.ValidEdits | controllers/userController.js:147-162 | on validated data the in-place branch never rejects, writes only normalised values, and writes nothing exactly when no editable field is given |
| UpdateProperties.ProcessIdMissing | controllers/userController.js:116-117 | an id with no active row gives a 404 naming it, with the table unchanged |
| UpdateProperties.ProcessIdFork | controllers/userController.js:119-141 | inactive manager: 400 and unchanged table; a late 400: the user's rows stay deactivated; otherwise one row is appended: it is active, has the new manager, takes each field from `update_data` or else from the old active row, and keeps its `created_at`; the user then has exactly one active row |
| UpdateProperties.ProcessIdInPlace | controllers/userController.js:144-167 | only the user's active rows change, and only in the given fields plus `updated_at`; with no editable field nothing changes; an invalid field gives 400 and an unchanged table |
| UpdateProperties.InPlaceIdempotent | controllers/userController.js:144-167 | repeating an in-place edit with the same data at a later time continues and rewrites only `updated_at` of the rows it edits; every other column and row stays as the first edit left it |
| UpdateProperties.ProcessIdCounts | controllers/userController.js:115-167 | one id never raises any count, leaves other users' counts alone, and leaves its user with an active row when the loop continues |
| UpdateProperties.SuccessorValid | controllers/userController.js:126-132 | on validated data and a well-formed old row, the successor passes the three checks and is well formed |
| UpdateProperties.ForkStepWellFormed | controllers/userController.js:119-141 | on validated data and well-formed rows, the fork writes only well-formed rows, and a fork that stops has changed nothing |
| UpdateProperties.InPlaceStepWellFormed | controllers/userController.js:144-167 | on validated data the in-place branch continues and writes only well-formed rows |
| UpdateProperties.ProcessIdWellFormed | controllers/userController.js:115-167 | on validated data and well-formed rows, a stopping id has changed nothing and every written row is well formed |
| UpdateProperties.ProcessIdsAppend | controllers/userController.js:115-170 | looping over two lists in turn is looping over the first, then over the second if the first completed |
| UpdateProperties.BatchStopsAtMissing | controllers/userController.js:115-117 | when the earlier ids complete and the next id has no active row, the request ends there with a 404 naming it, keeping the earlier ids' effects |
| UpdateProperties.BatchNotFound | controllers/userController.js:115-117 | a 404 from the loop names a listed id that has no active row in the final table |
| UpdateProperties.BatchCounts | controllers/userController.js:115-170 | the loop never raises a count and leaves unlisted users alone; when it completes, every listed user has an active row |
| UpdateProperties.BatchWellFormed | controllers/userController.js:115-170 | on validated data the loop keeps the table well formed |
| UpdateProperties.NoEditsLoop | controllers/userController.js:115-170 | with nothing to write, the loop changes nothing and completes exactly when every listed id has an active row |
| UpdateProperties.TrimmedNameOfValid | controllers/userController.js:126-130 | the trim of an accepted name is a stored name, and a stored name is accepted |
| Invariants.CreateKeepsAtMostOne | controllers/userController.js:18-24 | with a fresh id, creation keeps at most one active row per user |
| Invariants.CreateLeavesOneActive | controllers/userController.js:18-24 | a successful create under a fresh id leaves that id with exactly one active row |
| Invariants.CreateKeepsWellFormed | controllers/userController.js:8-24 | creation stores a trimmed name and a normalised mobile and PAN |
| Invariants.DeleteKeepsAtMostOne | controllers/userController.js:66-81 | deletion keeps at most one active row per user |
| Invariants.DeleteKeepsWellFormed | controllers/userController.js:66-81 | deletion leaves the remaining rows well formed |
| Invariants.UpdateKeepsAtMostOne | controllers/userController.js:94-170 | every `updateUser` outcome keeps at most one active row per user |
| Invariants.UpdateKeepsWellFormed | controllers/userController.js:94-170 | every `updateUser` outcome keeps the table well formed |
| Invariants.UpdateCompletedLeavesOneActive | controllers/userController.js:115-170 | after "Update(s) completed", every listed user has exactly one active row |
| Invariants.ManagerOnlyUpdate | controllers/userController.js:103-113 | `{manager_id: m}`: an inactive manager gives 400 and an unchanged table; otherwise no row is added, every row of a listed id (active or not) is reassigned, and ids without rows are ignored |
| Invariants.UpdateGoesToLoop | controllers/userController.js:97-115 | a validated request with ids that is not manager-only is exactly the loop over its ids |
| Invariants.ManagerAndNameUpdate | controllers/userController.js:119-141 | a new manager together with a name forks: the old rows are deactivated, and one new active row has the trimmed name, the old mobile, PAN and `created_at`, and the new manager |
| Invariants.ForkOneId | controllers/userController.js:115-141 | the loop over a single id taking the fork completes and appends exactly the successor row |
| Invariants.OneIdLoop | controllers/userController.js:115-170 | a loop over one id that the step lets continue completes with "Update(s) completed" and that step's table |
| Invariants.EmptyUpdate | utils/validators.js:35-42 | an empty `update_data` changes nothing; the reply is "Update(s) completed" exactly when every listed id has an active row, and 404 otherwise |
| Invariants.EmptyLoopFailsWith404 | controllers/userController.js:116-117 | with nothing to write, the loop can only fail with a 404 |

## Left out

- Express, routing, the JSON body parser and the error handler are not modelled. Each handler is one function from table and request to table and reply. The error path to `next(err)` is left out: it covers database errors and the `TypeError`s of non-string inputs.
- SQLite is reduced to a sequence of rows in insertion order. The surrogate `id` column and the foreign key are not modelled. `managers` is a map from id to active flag. Creating the database and seeding the sample managers is I/O.
- Logging (`utils/logger.js`) is left out because it has no effect on behaviour.
- `uuidv4()` becomes the `freshId` parameter. `uuid.validate` behind `isValidUUID` becomes the `uuidOk` predicate parameter.
- The clock becomes one `now` per request. The source reads `new Date()` separately for each statement.
- Concurrent requests are not modelled. Each handler is one atomic transition, so only the sequential outcome of the fork's non-atomic deactivate-then-insert window is kept.
- `user_ids` is modelled as an array of strings, or absent. An array holding non-strings is left out.
- `toUpperCase` is modelled on ASCII letters only. Whitespace for `\s` and `trim()` is the full ECMAScript white-space and line-terminator set.
- `String(v)` of numbers, booleans, arrays and objects is an opaque text carried by the value. So is the truthiness of non-strings.
- The fast path's `manager_id` given as an explicit `undefined` cannot come from a JSON body. The model answers it with 400 "Manager not found or inactive", as a NULL binding matches no manager.
- UserController.UpdateUser: its own contract covers only the rejections before any write. The behaviour of the other branches is stated by the lemmas of `UpdateProperties` and `Invariants` listed above.
- UserController.ReadUpdate: the loop reads the fields of `update_data` once, where the source re-reads them for every id. The normalisers are pure, so the values are the same.

=== FILE: invariants.dfy ===
/**
 * What the three write handlers keep true of the `users` table, and whole-
 * request scenarios of `updateUser`.
 */
module Invariants {
  import opened Wrappers
  import opened Text
  import opened Json
  import opened Validators
  import opened Users
  import opened UserController
  import opened UpdateProperties

  // ---------------------------------------------------------------------
  // createUser

  /** Creating a user under a fresh id keeps at most one active row per user. */
  lemma CreateKeepsAtMostOne(t: Table, managers: Managers, uuidOk: UuidCheck, body: Body,
                             freshId: string, now: Timestamp)
    requires AtMostOneActive(t)
    requires forall row :: row in t ==> row.userId != freshId
    ensures AtMostOneActive(CreateUser(t, managers, uuidOk, body, freshId, now).table)
  {
    var r := CreateUser(t, managers, uuidOk, body, freshId, now);
    if !r.response.Fail? {
      assert r.table == t + [r.table[|t|]];
      ActiveCountZero(t, freshId);
      forall v ensures ActiveCount(r.table, v) <= 1 {
        ActiveCountAppend(t, r.table[|t|], v);
      }
    }
  }

  /** A successful create under a fresh id leaves that id with exactly one
      active row, the one it inserted. */
  lemma CreateLeavesOneActive(t: Table, managers: Managers, uuidOk: UuidCheck, body: Body,
                              freshId: string, now: Timestamp)
    requires forall row :: row in t ==> row.userId != freshId
    ensures var r := CreateUser(t, managers, uuidOk, body, freshId, now);
      !r.response.Fail? ==> ActiveCount(r.table, freshId) == 1
  {
    var r := CreateUser(t, managers, uuidOk, body, freshId, now);
    if !r.response.Fail? {
      assert r.table == t + [r.table[|t|]];
      ActiveCountZero(t, freshId);
      ActiveCountAppend(t, r.table[|t|], freshId);
    }
  }

  /** Creating a user stores a trimmed name, a normalised mobile and a normalised PAN. */
  lemma CreateKeepsWellFormed(t: Table, managers: Managers, uuidOk: UuidCheck, body: Body,
                              freshId: string, now: Timestamp)
    requires WellFormed(t)
    ensures WellFormed(CreateUser(t, managers, uuidOk, body, freshId, now).table)
  {
    var r := CreateUser(t, managers, uuidOk, body, freshId, now);
    if !r.response.Fail? {
      var row := r.table[|t|];
      assert r.table == t + [row];
      assert ValidateCreatePayload(uuidOk, body).None?;
      TrimmedNameOfValid(StringOf(Get(body, "full_name")));
      WellFormedAppend(t, row);
    }
  }

  // ---------------------------------------------------------------------
  // deleteUser

  /** Deleting rows never adds an active row. */
  lemma DeleteKeepsAtMostOne(t: Table, body: Body)
    requires AtMostOneActive(t)
    ensures AtMostOneActive(DeleteUser(t, body).table)
  {
    var r := DeleteUser(t, body);
    var userId, mob := Get(body, "user_id"), Get(body, "mob_num");
    forall v ensures ActiveCount(r.table, v) <= 1 {
      if Truthy(userId) {
        RemoveCounts(t, ByUserId(StringOf(userId)), v);
      } else if Truthy(mob) && NormalizeMobile(mob).Some? {
        RemoveCounts(t, ByMobile(NormalizeMobile(mob).value), v);
      }
    }
  }

  /** Deleting rows keeps the rows that remain as they were. */
  lemma DeleteKeepsWellFormed(t: Table, body: Body)
    requires WellFormed(t)
    ensures WellFormed(DeleteUser(t, body).table)
  {
  }

  // ---------------------------------------------------------------------
  // updateUser

  /** Updating keeps at most one active row per user: the fast path touches
      no `is_active`, and each id of the loop either edits in place or swaps
      the user's active row for a new one. */
  lemma UpdateKeepsAtMostOne(t: Table, managers: Managers, uuidOk: UuidCheck, req: UpdateRequest, now: Timestamp)
    requires AtMostOneActive(t)
    ensures AtMostOneActive(UpdateUser(t, managers, uuidOk, req, now).table)
  {
    var r := UpdateUser(t, managers, uuidOk, req, now);
    if req.userIds.Some? && req.userIds.value != [] && ValidateUpdateData(uuidOk, req.updateData).None? {
      var data, ids := req.updateData, req.userIds.value;
      forall v ensures ActiveCount(r.table, v) <= 1 {
        if !OnlyManagerKey(data) {
          BatchCounts(t, managers, ReadUpdate(data), ids, now, v);
        }
      }
    }
  }

  /** Updating stores only trimmed names and normalised mobiles and PANs. */
  lemma UpdateKeepsWellFormed(t: Table, managers: Managers, uuidOk: UuidCheck, req: UpdateRequest, now: Timestamp)
    requires WellFormed(t)
    ensures WellFormed(UpdateUser(t, managers, uuidOk, req, now).table)
  {
    if req.userIds.Some? && req.userIds.value != [] && ValidateUpdateData(uuidOk, req.updateData).None? {
      var data, ids := req.updateData, req.userIds.value;
      if OnlyManagerKey(data) {
        if Get(data, "manager_id").Str? {
          SameDetailsWellFormed(t, Reassign(t, ids, Get(data, "manager_id").s, now));
        }
      } else {
        ValidatedFields(uuidOk, data);
        BatchWellFormed(t, managers, ReadUpdate(data), ids, now);
      }
    }
  }

  /** A reply of "Update(s) completed" means every listed user ends with
      exactly one active row. */
  lemma UpdateCompletedLeavesOneActive(t: Table, managers: Managers, uuidOk: UuidCheck, req: UpdateRequest, now: Timestamp)
    requires AtMostOneActive(t)
    requires UpdateUser(t, managers, uuidOk, req, now).response == Ok(UpdatesCompleted)
    ensures forall id :: id in req.userIds.value ==> ActiveCount(UpdateUser(t, managers, uuidOk, req, now).table, id) == 1
  {
    var r := UpdateUser(t, managers, uuidOk, req, now);
    var data, ids := req.updateData, req.userIds.value;
    assert !OnlyManagerKey(data);
    forall id | id in ids ensures ActiveCount(r.table, id) == 1 {
      BatchCounts(t, managers, ReadUpdate(data), ids, now, id);
    }
  }

  // ---------------------------------------------------------------------
  // Whole requests

  /** An `update_data` with `manager_id` as its only key takes the bulk path:
      every row of a listed id is reassigned, active or not, no row is added,
      and ids without rows are ignored rather than reported. */
  lemma ManagerOnlyUpdate(t: Table, managers: Managers, uuidOk: UuidCheck, ids: seq<string>,
                          m: string, data: Body, now: Timestamp)
    requires ids != [] && uuidOk(m)
    requires data == Object(map["manager_id" := Str(m)])
    ensures var r := UpdateUser(t, managers, uuidOk, UpdateRequest(Some(ids), data), now);
      && (!ManagerActive(managers, m) ==> r == Transition(t, Fail(400, ManagerNotFound)))
      && (ManagerActive(managers, m) ==>
            && r.response == Ok(ManagerUpdated)
            && |r.table| == |t|
            && forall i :: 0 <= i < |t| ==>
                 r.table[i] == if t[i].userId in ids then t[i].(managerId := m, updatedAt := now) else t[i])
  {
    assert Get(data, "full_name") == Undefined && Get(data, "mob_num") == Undefined && Get(data, "pan_num") == Undefined;
    assert OnlyManagerKey(data);
  }

  /** A request that passes validation and is not manager-only goes to the loop. */
  lemma UpdateGoesToLoop(t: Table, managers: Managers, uuidOk: UuidCheck, ids: seq<string>, data: Body, now: Timestamp)
    requires ids != [] && ValidateUpdateData(uuidOk, data).None? && !OnlyManagerKey(data)
    ensures FieldsTyped(data) && ValidFields(ReadUpdate(data))
    ensures UpdateUser(t, managers, uuidOk, UpdateRequest(Some(ids), data), now) ==
      ProcessIds(t, managers, ReadUpdate(data), ids, now)
  {
    ValidatedFields(uuidOk, data);
  }

  /** Changing the manager together with the name forks the history: the old
      row is kept, deactivated, and a new active row carries the new manager,
      the trimmed name, the old mobile, PAN and `created_at`. */
  lemma ManagerAndNameUpdate(t: Table, managers: Managers, uuidOk: UuidCheck, uid: string,
                             m: string, name: string, data: Body, now: Timestamp)
    requires uuidOk(m) && ManagerActive(managers, m) && IsNonEmptyString(Str(name))
    requires data.Object? && Get(data, "manager_id") == Str(m) && Get(data, "full_name") == Str(name)
    requires Get(data, "mob_num") == Undefined && Get(data, "pan_num") == Undefined
    requires FirstActive(t, uid).Some?
    requires t[FirstActive(t, uid).value].managerId != m
    requires WellFormedRow(t[FirstActive(t, uid).value])
    ensures var user := t[FirstActive(t, uid).value];
      var r := UpdateUser(t, managers, uuidOk, UpdateRequest(Some([uid]), data), now);
      && r.response == Ok(UpdatesCompleted)
      && |r.table| == |t| + 1
      && r.table[..|t|] == Deactivate(t, uid, now)
      && r.table[|t|] == Row(uid, Trim(name), user.mobNum, user.panNum, m,
                             if user.createdAt != "" then user.createdAt else now, now, true)
  {
    assert !OnlyManagerKey(data) by {
      assert "full_name" in data.fields.Keys;
    }
    UpdateGoesToLoop(t, managers, uuidOk, [uid], data, now);
    assert ReadUpdate(data) == UpdateFields(Some(name), None, None, Some(m));
    ForkOneId(t, managers, ReadUpdate(data), uid, now);
  }

  /** The loop over the single id of `ManagerAndNameUpdate`. */
  lemma ForkOneId(t: Table, managers: Managers, u: UpdateFields, uid: string, now: Timestamp)
    requires ValidFields(u) && u.fullName.Some? && u.mobNum.None? && u.panNum.None? && u.managerId.Some?
    requires ManagerActive(managers, u.managerId.value)
    requires FirstActive(t, uid).Some?
    requires t[FirstActive(t, uid).value].managerId != u.managerId.value
    requires WellFormedRow(t[FirstActive(t, uid).value])
    ensures var user := t[FirstActive(t, uid).value];
      var r := ProcessIds(t, managers, u, [uid], now);
      && r.response == Ok(UpdatesCompleted)
      && |r.table| == |t| + 1
      && r.table[..|t|] == Deactivate(t, uid, now)
      && r.table[|t|] == Row(uid, Trim(u.fullName.value), user.mobNum, user.panNum, u.managerId.value,
                             if user.createdAt != "" then user.createdAt else now, now, true)
  {
    var user := t[FirstActive(t, uid).value];
    var row := Row(uid, Trim(u.fullName.value), user.mobNum, user.panNum, u.managerId.value,
                   if user.createdAt != "" then user.createdAt else now, now, true);
    var d := Deactivate(t, uid, now);
    ForkOneStep(t, managers, u, uid, now);
    OneIdLoop(t, managers, u, uid, now);
    assert (d + [row])[..|t|] == d;
  }

  /** The loop over a single id that continues completes with that id's table. */
  lemma OneIdLoop(t: Table, managers: Managers, u: UpdateFields, uid: string, now: Timestamp)
    requires ProcessId(t, managers, u, uid, now).Continue?
    ensures ProcessIds(t, managers, u, [uid], now) ==
      Transition(ProcessId(t, managers, u, uid, now).table, Ok(UpdatesCompleted))
  {
    assert [uid][0] == uid && [uid][1..] == [];
  }

  /** The one step of `ForkOneId`. */
  lemma ForkOneStep(t: Table, managers: Managers, u: UpdateFields, uid: string, now: Timestamp)
    requires ValidFields(u) && u.fullName.Some? && u.mobNum.None? && u.panNum.None? && u.managerId.Some?
    requires ManagerActive(managers, u.managerId.value)
    requires FirstActive(t, uid).Some?
    requires t[FirstActive(t, uid).value].managerId != u.managerId.value
    requires WellFormedRow(t[FirstActive(t, uid).value])
    ensures var user := t[FirstActive(t, uid).value];
      ProcessId(t, managers, u, uid, now) ==
        Continue(Deactivate(t, uid, now) +
                 [Row(uid, Trim(u.fullName.value), user.mobNum, user.panNum, u.managerId.value,
                      if user.createdAt != "" then user.createdAt else now, now, true)])
  {
    var user := t[FirstActive(t, uid).value];
    var m := u.managerId.value;
    SuccessorValid(u, user, m, now);
    assert ChangesManager(u, user) && user.userId == uid;
  }

  /** An empty `update_data` passes validation and changes nothing; the
      request then only checks that every listed id has an active row. */
  lemma EmptyUpdate(t: Table, managers: Managers, uuidOk: UuidCheck, ids: seq<string>, now: Timestamp)
    requires ids != []
    ensures var r := UpdateUser(t, managers, uuidOk, UpdateRequest(Some(ids), Object(map[])), now);
      && r.table == t
      && (r.response == Ok(UpdatesCompleted) <==> forall id :: id in ids ==> ActiveCount(t, id) > 0)
      && (r.response != Ok(UpdatesCompleted) ==> r.response.Fail? && r.response.status == 404)
  {
    var data := Object(map[]);
    assert !OnlyManagerKey(data) by {
      assert "manager_id" !in data.fields.Keys;
    }
    var u := ReadUpdate(data);
    assert u == UpdateFields(None, None, None, None);
    NoEditsLoop(t, managers, u, ids, now);
    var r := ProcessIds(t, managers, u, ids, now);
    if !r.response.Ok? {
      EmptyLoopFailsWith404(t, managers, u, ids, now);
    }
  }

  /** With nothing to write, the only way the loop stops is a missing user. */
  lemma {:induction false} EmptyLoopFailsWith404(t: Table, managers: Managers, u: UpdateFields, ids: seq<string>, now: Timestamp)
    requires u == UpdateFields(None, None, None, None)
    ensures var r := ProcessIds(t, managers, u, ids, now);
      r.response.Fail? ==> r.response.status == 404
    decreases |ids|
  {
    if ids != [] && ActiveCount(t, ids[0]) > 0 {
      assert ProcessId(t, managers, u, ids[0], now) == Continue(t);
      EmptyLoopFailsWith404(t, managers, u, ids[1..], now);
    }
  }
}

=== FILE: json.dfy ===
/**
 * The JavaScript values a request handler sees after Express has parsed a
 * JSON body: only the distinctions the handlers act on are kept.
 */
module Json {

  /** One property value. `Other` covers numbers, booleans, null, arrays and
      objects; it keeps the value's truthiness and its `String(v)` form. */
  datatype Value =
    | Undefined
    | Str(s: string)
    | Other(truthy: bool, text: string)

  /** A request body or `update_data`: an object with its own enumerable keys
      (an array shows up with its index keys), or anything that is not an object. */
  datatype Body = NotObject | Object(fields: map<string, Value>)

  /** JavaScript truthiness (`!v` is false). */
  predicate Truthy(v: Value) {
    match v
    case Undefined => false
    case Str(s) => s != ""
    case Other(t, _) => t
  }

  /** `String(v)`: the text of a string, `"undefined"`, or an opaque text carried
      by any other value. */
  function StringOf(v: Value): string {
    match v
    case Undefined => "undefined"
    case Str(s) => s
    case Other(_, text) => text
  }

  /** Property access `body.key`, undefined when absent or when `body` is not an object. */
  function Get(body: Body, key: string): Value {
    if body.Object? && key in body.fields then body.fields[key] else Undefined
  }
}

=== FILE: text.dfy ===
/**
 * Character classes and the string primitives the validators use: JavaScript's
 * `\s`, `\D`, `trim()` and `toUpperCase()`, stated over `seq<char>`.
 */
module Text {

  /** The ECMAScript WhiteSpace and LineTerminator code points: exactly what
      the regular-expression class `\s` matches and what `trim()` removes. */
  predicate IsWhitespace(c: char) {
    || c == ' '
    || '\t' <= c <= '\r'
    || c == '\U{00A0}' || c == '\U{1680}'
    || '\U{2000}' <= c <= '\U{200A}'
    || c == '\U{2028}' || c == '\U{2029}' || c == '\U{202F}'
    || c == '\U{205F}' || c == '\U{3000}' || c == '\U{FEFF}'
  }

  predicate IsDigit(c: char) {
    '0' <= c <= '9'
  }

  predicate IsUpperLetter(c: char) {
    'A' <= c <= 'Z'
  }

  /** Upper-casing of one character, restricted to the ASCII letters. */
  function UpperChar(c: char): (u: char)
    ensures 'a' <= c <= 'z' ==> IsUpperLetter(u) && u as int == c as int - 32
    ensures !('a' <= c <= 'z') ==> u == c
  {
    if 'a' <= c <= 'z' then (c as int - 32) as char else c
  }

  predicate AllWhitespace(s: string) {
    forall i :: 0 <= i < |s| ==> IsWhitespace(s[i])
  }

  predicate NoWhitespace(s: string) {
    forall i :: 0 <= i < |s| ==> !IsWhitespace(s[i])
  }

  predicate AllDigits(s: string) {
    forall i :: 0 <= i < |s| ==> IsDigit(s[i])
  }

  predicate NoDigits(s: string) {
    forall i :: 0 <= i < |s| ==> !IsDigit(s[i])
  }

  /** `s.replace(/\s+/g, '')`: the characters of `s` that are not whitespace, in order. */
  function RemoveWhitespace(s: string): (r: string)
    ensures |r| <= |s|
    ensures NoWhitespace(r)
  {
    if s == [] then []
    else (if IsWhitespace(s[0]) then [] else [s[0]]) + RemoveWhitespace(s[1..])
  }

  /** `s.replace(/\D/g, '')`: the decimal digits of `s`, in order. */
  function KeepDigits(s: string): (r: string)
    ensures |r| <= |s|
    ensures AllDigits(r)
  {
    if s == [] then []
    else (if IsDigit(s[0]) then [s[0]] else []) + KeepDigits(s[1..])
  }

  /** `s.replace(/^p/, '')` for a literal pattern `p`: removes one leading copy of `p`. */
  function StripPrefix(s: string, p: string): (r: string)
    ensures p <= s ==> s == p + r
    ensures !(p <= s) ==> r == s
  {
    if p <= s then s[|p|..] else s
  }

  /** `trimStart()`: the suffix left after dropping the leading whitespace. */
  function TrimStart(s: string): (r: string)
    ensures |r| <= |s| && r == s[|s| - |r|..]
    ensures forall i :: 0 <= i < |s| - |r| ==> IsWhitespace(s[i])
    ensures r == [] || !IsWhitespace(r[0])
  {
    if s != [] && IsWhitespace(s[0]) then TrimStart(s[1..]) else s
  }

  /** `trimEnd()`: the prefix left after dropping the trailing whitespace. */
  function TrimEnd(s: string): (r: string)
    ensures |r| <= |s| && r == s[..|r|]
    ensures forall i :: |r| <= i < |s| ==> IsWhitespace(s[i])
    ensures r == [] || !IsWhitespace(r[|r| - 1])
  {
    if s != [] && IsWhitespace(s[|s| - 1]) then TrimEnd(s[..|s| - 1]) else s
  }

  /** `trim()`: a contiguous slice of `s` that neither starts nor ends with
      whitespace, with only whitespace cut away on either side. */
  function Trim(s: string): (r: string)
    ensures |r| <= |s|
    ensures r == [] || (!IsWhitespace(r[0]) && !IsWhitespace(r[|r| - 1]))
  {
    TrimEnd(TrimStart(s))
  }

  /** `toUpperCase()` on ASCII text. */
  function Upper(s: string): (r: string)
    ensures |r| == |s|
    ensures forall i :: 0 <= i < |s| ==> r[i] == UpperChar(s[i])
  {
    if s == [] then [] else [UpperChar(s[0])] + Upper(s[1..])
  }

  // ---------------------------------------------------------------------
  // Lemmas

  lemma {:induction false} RemoveWhitespaceAppend(a: string, b: string)
    ensures RemoveWhitespace(a + b) == RemoveWhitespace(a) + RemoveWhitespace(b)
  {
    if a == [] {
      assert a + b == b;
    } else {
      var ab := a + b;
      assert ab[0] == a[0];
      assert ab[1..] == a[1..] + b;
      RemoveWhitespaceAppend(a[1..], b);
      assert RemoveWhitespace(ab) == (if IsWhitespace(a[0]) then [] else [a[0]]) + RemoveWhitespace(ab[1..]);
    }
  }

  /** A run of whitespace is deleted outright, not replaced by anything. */
  lemma {:induction false} RemoveAllWhitespace(w: string)
    requires AllWhitespace(w)
    ensures RemoveWhitespace(w) == []
  {
    if w != [] {
      RemoveAllWhitespace(w[1..]);
    }
  }

  lemma {:induction false} RemoveWhitespaceNoop(s: string)
    requires NoWhitespace(s)
    ensures RemoveWhitespace(s) == s
  {
    if s != [] {
      RemoveWhitespaceNoop(s[1..]);
      assert s == [s[0]] + s[1..];
    }
  }

  lemma {:induction false} KeepDigitsAppend(a: string, b: string)
    ensures KeepDigits(a + b) == KeepDigits(a) + KeepDigits(b)
  {
    if a == [] {
      assert a + b == b;
    } else {
      var ab := a + b;
      assert ab[0] == a[0];
      assert ab[1..] == a[1..] + b;
      KeepDigitsAppend(a[1..], b);
      assert KeepDigits(ab) == (if IsDigit(a[0]) then [a[0]] else []) + KeepDigits(ab[1..]);
    }
  }

  /** A text without digits leaves nothing behind, whitespace removed or not. */
  lemma {:induction false} KeepDigitsOfNoDigits(s: string)
    requires NoDigits(s)
    ensures KeepDigits(s) == []
    ensures KeepDigits(RemoveWhitespace(s)) == []
  {
    if s != [] {
      KeepDigitsOfNoDigits(s[1..]);
      var head := if IsWhitespace(s[0]) then [] else [s[0]];
      assert RemoveWhitespace(s) == head + RemoveWhitespace(s[1..]);
      KeepDigitsAppend(head, RemoveWhitespace(s[1..]));
      assert KeepDigits(head) == [] by {
        if head != [] {
          assert head[1..] == [];
        }
      }
    }
  }

  lemma {:induction false} KeepDigitsNoop(s: string)
    requires AllDigits(s)
    ensures KeepDigits(s) == s
  {
    if s != [] {
      KeepDigitsNoop(s[1..]);
      assert s == [s[0]] + s[1..];
    }
  }

  /** A string is trimmed to nothing exactly when it is all whitespace. */
  lemma TrimEmptyIff(s: string)
    ensures Trim(s) == [] <==> AllWhitespace(s)
  {
    var u := TrimStart(s);
    if AllWhitespace(s) {
      assert AllWhitespace(u);
    } else {
      var i :| 0 <= i < |s| && !IsWhitespace(s[i]);
      assert |s| - |u| <= i;
      assert TrimEnd(u)[0] == u[0];
    }
  }

  /** Whitespace in front of `x` does not change `trimStart`. */
  lemma {:induction false} TrimStartPadded(a: string, x: string)
    requires AllWhitespace(a)
    ensures TrimStart(a + x) == TrimStart(x)
  {
    if a != [] {
      assert (a + x)[1..] == a[1..] + x;
      TrimStartPadded(a[1..], x);
    } else {
      assert a + x == x;
    }
  }

  /** Whitespace behind `x` does not change `trimEnd`. */
  lemma {:induction false} TrimEndPadded(x: string, b: string)
    requires AllWhitespace(b)
    ensures TrimEnd(x + b) == TrimEnd(x)
  {
    if b != [] {
      var n := |b| - 1;
      assert (x + b)[..|x + b| - 1] == x + b[..n];
      TrimEndPadded(x, b[..n]);
    } else {
      assert x + b == x;
    }
  }

  /** `trimStart` of a concatenation whose left part holds a non-whitespace character. */
  lemma {:induction false} TrimStartAppend(x: string, y: string)
    ensures AllWhitespace(x) ==> TrimStart(x + y) == TrimStart(y)
    ensures !AllWhitespace(x) ==> TrimStart(x + y) == TrimStart(x) + y
  {
    if AllWhitespace(x) {
      TrimStartPadded(x, y);
    } else if !IsWhitespace(x[0]) {
      assert (x + y)[0] == x[0];
    } else {
      var i :| 0 <= i < |x| && !IsWhitespace(x[i]);
      assert x[1..][i - 1] == x[i];
      assert !AllWhitespace(x[1..]);
      assert (x + y)[0] == x[0];
      assert (x + y)[1..] == x[1..] + y;
      TrimStartAppend(x[1..], y);
    }
  }

  /** Surrounding whitespace does not change `trim`. */
  lemma TrimPadded(a: string, s: string, b: string)
    requires AllWhitespace(a) && AllWhitespace(b)
    ensures Trim(a + s + b) == Trim(s)
  {
    assert a + s + b == a + (s + b);
    TrimStartPadded(a, s + b);
    TrimStartAppend(s, b);
    if AllWhitespace(s) {
      TrimEmptyIff(s);
      assert TrimStart(b) == [];
    } else {
      TrimEndPadded(TrimStart(s), b);
    }
  }

  /** A string that neither starts nor ends with whitespace is its own trim. */
  lemma TrimNoop(s: string)
    requires s == [] || (!IsWhitespace(s[0]) && !IsWhitespace(s[|s| - 1]))
    ensures Trim(s) == s
  {
  }

  lemma TrimIdempotent(s: string)
    ensures Trim(Trim(s)) == Trim(s)
  {
    TrimNoop(Trim(s));
  }

  lemma UpperIdempotent(s: string)
    ensures Upper(Upper(s)) == Upper(s)
  {
  }

  /** Upper-casing never turns whitespace into non-whitespace or back. */
  lemma UpperCharWhitespace(c: char)
    ensures IsWhitespace(UpperChar(c)) <==> IsWhitespace(c)
  {
  }

  /** Hence upper-casing commutes with `trim`. */
  lemma {:induction false} TrimStartUpper(s: string)
    ensures TrimStart(Upper(s)) == Upper(TrimStart(s))
  {
    if s != [] {
      var u := Upper(s);
      assert u[0] == UpperChar(s[0]);
      UpperCharWhitespace(s[0]);
      if IsWhitespace(s[0]) {
        assert u[1..] == Upper(s[1..]);
        TrimStartUpper(s[1..]);
      }
    }
  }

  lemma {:induction false} TrimEndUpper(s: string)
    ensures TrimEnd(Upper(s)) == Upper(TrimEnd(s))
  {
    if s != [] {
      var n := |s| - 1;
      var u := Upper(s);
      UpperCharWhitespace(s[n]);
      if IsWhitespace(s[n]) {
        UpperPrefix(s, n);
        TrimEndUpper(s[..n]);
        calc {
          TrimEnd(u);
          TrimEnd(u[..n]);
          Upper(TrimEnd(s[..n]));
          Upper(TrimEnd(s));
        }
      }
    }
  }

  lemma UpperPrefix(s: string, n: nat)
    requires n <= |s|
    ensures Upper(s)[..n] == Upper(s[..n])
  {
  }

  lemma TrimUpper(s: string)
    ensures Trim(Upper(s)) == Upper(Trim(s))
  {
    TrimStartUpper(s);
    TrimEndUpper(TrimStart(s));
  }
}

=== FILE: update_properties.dfy ===
/**
 * Properties of `updateUser`: what one id of the loop does to the table on
 * each branch, how the loop composes, and the invariants the three write
 * handlers keep.
 */
module UpdateProperties {
  import opened Wrappers
  import opened Text
  import opened Json
  import opened Validators
  import opened Users
  import opened UserController

  // ---------------------------------------------------------------------
  // Stored rows

  /** A name as the handlers store it: `trim()` of a string with a
      non-whitespace character. */
  predicate TrimmedName(n: string) {
    n != [] && !IsWhitespace(n[0]) && !IsWhitespace(n[|n| - 1])
  }

  /** A row as every write path stores it: trimmed name, normalised mobile and PAN. */
  predicate WellFormedRow(row: Row) {
    TrimmedName(row.fullName) && IsMobile(row.mobNum) && IsPan(row.panNum)
  }

  predicate WellFormed(t: Table) {
    forall row :: row in t ==> WellFormedRow(row)
  }

  /** An update that leaves every row's name, mobile and PAN alone keeps the
      table well formed. */
  lemma SameDetailsWellFormed(t: Table, t': Table)
    requires WellFormed(t) && |t'| == |t|
    requires forall i :: 0 <= i < |t| ==> SameDetails(t'[i], t[i])
    ensures WellFormed(t')
  {
    forall r | r in t' ensures WellFormedRow(r) {
      var i :| 0 <= i < |t'| && t'[i] == r;
      assert t[i] in t;
    }
  }

  lemma DeactivateWellFormed(t: Table, uid: string, now: Timestamp)
    requires WellFormed(t)
    ensures WellFormed(Deactivate(t, uid, now))
  {
    SameDetailsWellFormed(t, Deactivate(t, uid, now));
  }

  lemma WellFormedAppend(t: Table, row: Row)
    requires WellFormed(t) && WellFormedRow(row)
    ensures WellFormed(t + [row])
  {
    assert forall r :: r in t + [row] ==> r in t || r == row;
  }

  /** Trimming a string that passes `isNonEmptyString` gives a stored name,
      and a stored name passes `isNonEmptyString` again. */
  lemma TrimmedNameOfValid(s: string)
    ensures IsNonEmptyString(Str(s)) ==> TrimmedName(Trim(s))
    ensures TrimmedName(s) ==> IsNonEmptyString(Str(s))
  {
    TrimEmptyIff(s);
    if TrimmedName(s) {
      assert !IsWhitespace(s[0]);
    }
  }

  // ---------------------------------------------------------------------
  // What validation guarantees the loop

  /** The fields of an `update_data` that passed validation: a name that
      passes `isNonEmptyString`, and a mobile and a PAN that normalise, with
      their normal forms. */
  predicate ValidFields(u: UpdateFields) {
    && (u.fullName.Some? ==> IsNonEmptyString(Str(u.fullName.value)))
    && (u.mobNum.Some? ==> u.mobNum.value.Some? && IsMobile(u.mobNum.value.value))
    && (u.panNum.Some? ==> u.panNum.value.Some? && IsPan(u.panNum.value.value))
  }

  /** Once `validateUpdateData` passes, the loop may dereference the fields,
      and what it reads is valid. */
  lemma ValidatedFields(uuidOk: UuidCheck, data: Body)
    requires ValidateUpdateData(uuidOk, data).None?
    ensures FieldsTyped(data)
    ensures ValidFields(ReadUpdate(data))
  {
  }

  /** On valid fields the in-place branch never rejects, it writes normalised
      values, and it writes nothing exactly when no editable field is given. */
  lemma ValidEdits(u: UpdateFields)
    requires ValidFields(u)
    ensures InPlaceEdits(u).Success?
    ensures var e := InPlaceEdits(u).value;
      && (e.fullName.Some? ==> TrimmedName(e.fullName.value))
      && (e.mobNum.Some? ==> IsMobile(e.mobNum.value))
      && (e.panNum.Some? ==> IsPan(e.panNum.value))
      && (e.Empty() <==> u.fullName.None? && u.mobNum.None? && u.panNum.None?)
  {
    if u.fullName.Some? {
      TrimmedNameOfValid(u.fullName.value);
    }
  }

  // ---------------------------------------------------------------------
  // One id of the loop

  /** A user id without an active row ends the loop with a 404 naming it and
      leaves the table as it is. */
  lemma ProcessIdMissing(t: Table, managers: Managers, u: UpdateFields, uid: string, now: Timestamp)
    requires forall row :: row in t ==> !(row.userId == uid && row.isActive)
    ensures ProcessId(t, managers, u, uid, now) == Stop(t, Fail(404, UserNotFoundFor(uid)))
  {
    ActiveCountZero(t, uid);
  }

  /** The fork branch: the manager changes, so every row of the user is
      deactivated and a new active row is appended that inherits each field
      not given in `update_data`, and the original `created_at`. */
  lemma ProcessIdFork(t: Table, managers: Managers, u: UpdateFields, uid: string, now: Timestamp)
    requires FirstActive(t, uid).Some?
    requires ChangesManager(u, t[FirstActive(t, uid).value])
    ensures var user, m := t[FirstActive(t, uid).value], u.managerId.value;
      var s := ProcessId(t, managers, u, uid, now);
      && (!ManagerActive(managers, m) ==> s == Stop(t, Fail(400, ManagerNotFound)))
      && (ManagerActive(managers, m) && s.Stop? ==>
            s.table == Deactivate(t, uid, now) && s.response.Fail? && s.response.status == 400)
      && (s.Continue? ==>
            && |s.table| == |t| + 1
            && s.table[..|t|] == Deactivate(t, uid, now)
            && ActiveCount(s.table, uid) == 1
            && var row := s.table[|t|];
               && row.userId == uid && row.isActive && row.managerId == m && row.managerId != user.managerId
               && row.updatedAt == now
               && row.createdAt == (if user.createdAt != "" then user.createdAt else now)
               && row.fullName == (if u.fullName.None? then user.fullName else Trim(u.fullName.value))
               && Some(row.mobNum) == (if u.mobNum.None? then Some(user.mobNum) else u.mobNum.value)
               && Some(row.panNum) == (if u.panNum.None? then Some(user.panNum) else u.panNum.value))
  {
    var k := FirstActive(t, uid).value;
    var user := t[k];
    var s := ProcessId(t, managers, u, uid, now);
    assert s == ForkStep(t, managers, u, user, now);
    if s.Continue? {
      var d := Deactivate(t, uid, now);
      var row := s.table[|t|];
      assert s.table == d + [row];
      ActiveCountAppend(d, row, uid);
    }
  }

  /** The in-place branch: the manager stays, so only the user's active rows
      change, and on them only the fields given plus `updated_at`. */
  lemma ProcessIdInPlace(t: Table, managers: Managers, u: UpdateFields, uid: string, now: Timestamp)
    requires FirstActive(t, uid).Some?
    requires !ChangesManager(u, t[FirstActive(t, uid).value])
    ensures var s := ProcessId(t, managers, u, uid, now);
      && (InPlaceEdits(u).Failure? ==> s == Stop(t, Fail(400, InPlaceEdits(u).error)))
      && (InPlaceEdits(u).Success? ==> s.Continue?)
      && (s.Continue? ==>
            && |s.table| == |t|
            && (u.fullName.None? && u.mobNum.None? && u.panNum.None? ==> s.table == t)
            && forall i :: 0 <= i < |t| ==>
                 if t[i].userId == uid && t[i].isActive && !InPlaceEdits(u).value.Empty() then
                   && s.table[i].userId == uid && s.table[i].isActive
                   && s.table[i].managerId == t[i].managerId && s.table[i].createdAt == t[i].createdAt
                   && s.table[i].updatedAt == now
                   && s.table[i].fullName == (if u.fullName.None? then t[i].fullName else Trim(u.fullName.value))
                   && Some(s.table[i].mobNum) == (if u.mobNum.None? then Some(t[i].mobNum) else u.mobNum.value)
                   && Some(s.table[i].panNum) == (if u.panNum.None? then Some(t[i].panNum) else u.panNum.value)
                 else s.table[i] == t[i])
  {
  }

  /** Running the in-place branch again with the same data at a later time
      writes the same values: only `updated_at` of the rows it edits moves. */
  lemma InPlaceIdempotent(t: Table, u: UpdateFields, uid: string, now: Timestamp, later: Timestamp)
    requires InPlaceStep(t, u, uid, now).Continue?
    ensures var t' := InPlaceStep(t, u, uid, now).table;
      var s := InPlaceStep(t', u, uid, later);
      && s.Continue? && |s.table| == |t'|
      && forall i :: 0 <= i < |t'| ==>
           s.table[i] == if t'[i].userId == uid && t'[i].isActive && !InPlaceEdits(u).value.Empty()
                         then t'[i].(updatedAt := later) else t'[i]
  {
  }

  /** How one id moves the active-row counts: other users keep theirs, and the
      user keeps at least one active row unless the id stops the loop. */
  lemma ProcessIdCounts(t: Table, managers: Managers, u: UpdateFields, uid: string, now: Timestamp, v: string)
    ensures var s := ProcessId(t, managers, u, uid, now);
      && (v != uid ==> ActiveCount(s.table, v) == ActiveCount(t, v))
      && ActiveCount(s.table, uid) <= ActiveCount(t, uid)
      && (s.Continue? ==> 1 <= ActiveCount(s.table, uid))
  {
  }

  /** On valid fields and a well-formed predecessor, the successor row is
      accepted and is itself well formed. */
  lemma SuccessorValid(u: UpdateFields, user: Row, m: string, now: Timestamp)
    requires ValidFields(u) && WellFormedRow(user)
    ensures SuccessorError(u, user).None?
    ensures WellFormedRow(SuccessorRow(u, user, m, now))
  {
    var next := SuccessorFields(u, user);
    if u.fullName.Some? {
      TrimmedNameOfValid(u.fullName.value);
    }
    TrimmedNameOfValid(next.fullName);
    assert IsMobile(next.mobNum.value) && IsPan(next.panNum.value);
  }

  /** On valid fields and well-formed rows, the fork branch's late 400s
      cannot fire after its deactivation, and the row it appends is well formed. */
  lemma ForkStepWellFormed(t: Table, managers: Managers, u: UpdateFields, user: Row, now: Timestamp)
    requires ValidFields(u) && u.managerId.Some?
    requires WellFormed(t) && user in t
    ensures var s := ForkStep(t, managers, u, user, now);
      && WellFormed(s.table)
      && (s.Stop? ==> s.table == t)
  {
    var s := ForkStep(t, managers, u, user, now);
    if ManagerActive(managers, u.managerId.value) {
      SuccessorValid(u, user, u.managerId.value, now);
      var d := Deactivate(t, user.userId, now);
      var row := SuccessorRow(u, user, u.managerId.value, now);
      assert s == Continue(d + [row]);
      DeactivateWellFormed(t, user.userId, now);
      WellFormedAppend(d, row);
    }
  }

  /** On valid fields, the in-place branch carries on and writes only
      well-formed rows. */
  lemma InPlaceStepWellFormed(t: Table, u: UpdateFields, uid: string, now: Timestamp)
    requires ValidFields(u)
    requires WellFormed(t)
    ensures InPlaceStep(t, u, uid, now).Continue?
    ensures WellFormed(InPlaceStep(t, u, uid, now).table)
  {
    ValidEdits(u);
    var t' := InPlaceStep(t, u, uid, now).table;
    forall r | r in t' ensures WellFormedRow(r) {
      var i :| 0 <= i < |t'| && t'[i] == r;
      assert t[i] in t;
    }
  }

  /** On valid fields and well-formed rows, a step that stops has changed
      nothing, and every row a step writes is well formed. */
  lemma ProcessIdWellFormed(t: Table, managers: Managers, u: UpdateFields, uid: string, now: Timestamp)
    requires ValidFields(u)
    requires WellFormed(t)
    ensures var s := ProcessId(t, managers, u, uid, now);
      && WellFormed(s.table)
      && (s.Stop? ==> s.table == t)
  {
    match FirstActive(t, uid)
    case None =>
    case Some(k) =>
      assert t[k] in t;
      if ChangesManager(u, t[k]) {
        ForkStepWellFormed(t, managers, u, t[k], now);
      } else {
        InPlaceStepWellFormed(t, u, uid, now);
      }
  }

  // ---------------------------------------------------------------------
  // The loop over `user_ids`

  /** The loop over two lists of ids one after the other is the loop over
      the first, continued with the second when the first completes. */
  lemma {:induction false} ProcessIdsAppend(t: Table, managers: Managers, u: UpdateFields,
                                            ids: seq<string>, more: seq<string>, now: Timestamp)
    ensures ProcessIds(t, managers, u, ids + more, now) ==
      var r := ProcessIds(t, managers, u, ids, now);
      if r.response.Ok? then ProcessIds(r.table, managers, u, more, now) else r
    decreases |ids|
  {
    if ids == [] {
      assert ids + more == more;
    } else {
      assert (ids + more)[0] == ids[0];
      assert (ids + more)[1..] == ids[1..] + more;
      match ProcessId(t, managers, u, ids[0], now)
      case Stop(_, _) =>
      case Continue(t') => ProcessIdsAppend(t', managers, u, ids[1..], more, now);
    }
  }

  /** When the ids before position `j` complete and the `j`-th id has no
      active row, the request ends there with a 404 naming that id, keeping
      what the earlier ids wrote. */
  lemma BatchStopsAtMissing(t: Table, managers: Managers, u: UpdateFields, ids: seq<string>, j: nat, now: Timestamp)
    requires j < |ids|
    requires ProcessIds(t, managers, u, ids[..j], now).response.Ok?
    requires ActiveCount(ProcessIds(t, managers, u, ids[..j], now).table, ids[j]) == 0
    ensures ProcessIds(t, managers, u, ids, now) ==
      Transition(ProcessIds(t, managers, u, ids[..j], now).table, Fail(404, UserNotFoundFor(ids[j])))
  {
    assert ids == ids[..j] + ids[j..];
    ProcessIdsAppend(t, managers, u, ids[..j], ids[j..], now);
    assert ids[j..][0] == ids[j];
  }

  /** Conversely, a 404 from the loop names a listed id that has no active
      row in the table the request leaves behind. */
  lemma {:induction false} BatchNotFound(t: Table, managers: Managers, u: UpdateFields, ids: seq<string>, now: Timestamp)
    ensures var r := ProcessIds(t, managers, u, ids, now);
      r.response.Status() == 404 ==>
        exists j :: 0 <= j < |ids| && r.response == Fail(404, UserNotFoundFor(ids[j]))
                                   && ActiveCount(r.table, ids[j]) == 0
    decreases |ids|
  {
    var r := ProcessIds(t, managers, u, ids, now);
    if ids != [] && r.response.Status() == 404 {
      match ProcessId(t, managers, u, ids[0], now)
      case Stop(_, _) =>
        assert r.response == Fail(404, UserNotFoundFor(ids[0])) && r.table == t;
      case Continue(t') =>
        BatchNotFound(t', managers, u, ids[1..], now);
        var j :| 0 <= j < |ids[1..]| && r.response == Fail(404, UserNotFoundFor(ids[1..][j]))
                                     && ActiveCount(r.table, ids[1..][j]) == 0;
        assert ids[1..][j] == ids[j + 1];
    }
  }

  /** How the loop moves the active-row counts: users not listed keep theirs,
      no user gains one, and a completed loop leaves every listed user with
      an active row. */
  lemma {:induction false} BatchCounts(t: Table, managers: Managers, u: UpdateFields, ids: seq<string>,
                                       now: Timestamp, v: string)
    ensures var r := ProcessIds(t, managers, u, ids, now);
      && (v !in ids ==> ActiveCount(r.table, v) == ActiveCount(t, v))
      && ActiveCount(r.table, v) <= ActiveCount(t, v)
      && (r.response.Ok? && v in ids ==> 1 <= ActiveCount(r.table, v))
    decreases |ids|
  {
    if ids != [] {
      ProcessIdCounts(t, managers, u, ids[0], now, v);
      match ProcessId(t, managers, u, ids[0], now)
      case Stop(_, _) =>
      case Continue(t') =>
        BatchCounts(t', managers, u, ids[1..], now, v);
        assert v in ids ==> v == ids[0] || v in ids[1..];
    }
  }

  /** On valid fields and well-formed rows the loop writes only well-formed
      rows, and an id that stops it adds nothing to what the ids before it wrote. */
  lemma {:induction false} BatchWellFormed(t: Table, managers: Managers, u: UpdateFields, ids: seq<string>, now: Timestamp)
    requires ValidFields(u) && WellFormed(t)
    ensures WellFormed(ProcessIds(t, managers, u, ids, now).table)
    decreases |ids|
  {
    if ids != [] {
      ProcessIdWellFormed(t, managers, u, ids[0], now);
      match ProcessId(t, managers, u, ids[0], now)
      case Stop(_, _) =>
      case Continue(t') => BatchWellFormed(t', managers, u, ids[1..], now);
    }
  }

  /** With no field to write and no manager given, the loop is an existence
      check: it changes nothing and completes exactly when every listed id
      has an active row. */
  lemma {:induction false} NoEditsLoop(t: Table, managers: Managers, u: UpdateFields, ids: seq<string>, now: Timestamp)
    requires u == UpdateFields(None, None, None, None)
    ensures var r := ProcessIds(t, managers, u, ids, now);
      && r.table == t
      && (r.response.Ok? <==> forall id :: id in ids ==> ActiveCount(t, id) > 0)
    decreases |ids|
  {
    if ids != [] {
      var s := ProcessId(t, managers, u, ids[0], now);
      if ActiveCount(t, ids[0]) > 0 {
        assert s == Continue(t);
        NoEditsLoop(t, managers, u, ids[1..], now);
        assert forall id :: id in ids <==> id == ids[0] || id in ids[1..];
      } else {
        assert ids[0] in ids;
      }
    }
  }
}

=== FILE: user_controller.dfy ===
/**
 * The four request handlers of controllers/userController.js as pure
 * transitions: (users table, managers, request) to (users table, response).
 * Each handler runs as one sequential step; a statement that the source
 * commits before a later failure stays committed in the returned table.
 */
module UserController {
  import opened Wrappers
  import opened Text
  import opened Json
  import opened Validators
  import opened Users

  /** The JSON envelope of a reply: `success: true` with a message, a new
      user id or a list of rows, or `success: false` with an HTTP status. */
  datatype Response =
    | Ok(message: string)
    | Created(message: string, userId: string)
    | Listing(users: Table)
    | Fail(status: nat, message: string)
  {
    function Status(): nat {
      if Fail? then status else 200
    }
  }

  /** The table after a request, and the reply. */
  datatype Transition = Transition(table: Table, response: Response)

  const ManagerNotFound := "Manager not found or inactive"
  const UserCreated := "User created successfully"
  const InvalidMobFormat := "Invalid mob_num format"
  const ProvideIdOrMob := "Provide user_id or mob_num"
  const UserNotFound := "User not found"
  const UserDeleted := "User deleted successfully"
  const UsersDeleted := "User(s) deleted successfully"
  const UserIdsRequired := "user_ids must be a non-empty array"
  const ManagerUpdated := "Manager updated for provided users"
  const UpdatesCompleted := "Update(s) completed"
  const InvalidFullName := "Invalid full_name"
  const InvalidMobNum := "Invalid mob_num"
  const InvalidPanNum := "Invalid pan_num"

  function UserNotFoundFor(uid: string): string {
    "User not found: " + uid
  }

  // ---------------------------------------------------------------------
  // createUser

  /** The row `createUser` inserts for a validated payload. */
  function NewUserRow(body: Body, userId: string, now: Timestamp): (row: Row)
    ensures row.userId == userId && row.isActive && row.createdAt == now && row.updatedAt == now
    ensures IsNonEmptyString(Get(body, "full_name")) ==>
      && row.fullName == Trim(Get(body, "full_name").s)
      && IsNonEmptyString(Str(row.fullName))
    ensures NormalizeMobile(Get(body, "mob_num")).Some? ==>
      NormalizeMobile(Get(body, "mob_num")) == Some(row.mobNum) && IsMobile(row.mobNum)
    ensures NormalizePan(Get(body, "pan_num")).Some? ==>
      NormalizePan(Get(body, "pan_num")) == Some(row.panNum) && IsPan(row.panNum)
    ensures Get(body, "manager_id").Str? ==> Get(body, "manager_id") == Str(row.managerId)
  {
    assert IsNonEmptyString(Get(body, "full_name")) ==> IsNonEmptyString(Str(Trim(StringOf(Get(body, "full_name"))))) by {
      if IsNonEmptyString(Get(body, "full_name")) {
        TrimmedNameValid(Get(body, "full_name").s);
      }
    }
    Row(userId,
        Trim(StringOf(Get(body, "full_name"))),
        NormalizeMobile(Get(body, "mob_num")).GetOr(""),
        NormalizePan(Get(body, "pan_num")).GetOr(""),
        StringOf(Get(body, "manager_id")),
        now, now, true)
  }

  /** `createUser`: `freshId` stands for the `uuidv4()` result and `now` for the clock. */
  function CreateUser(t: Table, managers: Managers, uuidOk: UuidCheck, body: Body,
                      freshId: string, now: Timestamp): (r: Transition)
    ensures r.response.Fail? <==>
      ValidateCreatePayload(uuidOk, body).Some? || !ManagerActive(managers, StringOf(Get(body, "manager_id")))
    ensures r.response.Fail? ==> r.response.status == 400 && r.table == t
    ensures !r.response.Fail? ==>
      && r.response == Created(UserCreated, freshId)
      && |r.table| == |t| + 1 && r.table[..|t|] == t
      && var row := r.table[|t|];
         && row.userId == freshId && row.isActive
         && Get(body, "full_name") == Str(StringOf(Get(body, "full_name")))
         && row.fullName == Trim(StringOf(Get(body, "full_name")))
         && NormalizeMobile(Get(body, "mob_num")) == Some(row.mobNum)
         && NormalizePan(Get(body, "pan_num")) == Some(row.panNum)
         && Get(body, "manager_id") == Str(row.managerId)
         && row.createdAt == now && row.updatedAt == now
  {
    match ValidateCreatePayload(uuidOk, body)
    case Some(msg) => Transition(t, Fail(400, msg))
    case None =>
      if !ManagerActive(managers, StringOf(Get(body, "manager_id"))) then
        Transition(t, Fail(400, ManagerNotFound))
      else
        Transition(t + [NewUserRow(body, freshId, now)], Created(UserCreated, freshId))
  }

  // ---------------------------------------------------------------------
  // getUsers

  /** `getUsers`: the first truthy key among user_id, mob_num, manager_id
      selects the filter; no key lists the whole table. */
  function GetUsers(t: Table, body: Body): (resp: Response)
    ensures resp.Fail? <==>
      !Truthy(Get(body, "user_id")) && Truthy(Get(body, "mob_num")) && NormalizeMobile(Get(body, "mob_num")).None?
    ensures resp.Fail? ==> resp == Fail(400, InvalidMobFormat)
    ensures Truthy(Get(body, "user_id")) ==>
      && resp.Listing?
      && forall row :: multiset(resp.users)[row] ==
           if row.userId == StringOf(Get(body, "user_id")) then multiset(t)[row] else 0
    ensures !Truthy(Get(body, "user_id")) && NormalizeMobile(Get(body, "mob_num")).Some? ==>
      && resp.Listing?
      && forall row :: multiset(resp.users)[row] ==
           if Some(row.mobNum) == NormalizeMobile(Get(body, "mob_num")) then multiset(t)[row] else 0
    ensures !Truthy(Get(body, "user_id")) && !Truthy(Get(body, "mob_num")) && Truthy(Get(body, "manager_id")) ==>
      && resp.Listing?
      && forall row :: multiset(resp.users)[row] ==
           if row.managerId == StringOf(Get(body, "manager_id")) then multiset(t)[row] else 0
    ensures !Truthy(Get(body, "user_id")) && !Truthy(Get(body, "mob_num")) && !Truthy(Get(body, "manager_id")) ==>
      resp == Listing(t)
  {
    var userId, mob, managerId := Get(body, "user_id"), Get(body, "mob_num"), Get(body, "manager_id");
    if Truthy(userId) then Listing(Select(t, ByUserId(StringOf(userId))))
    else if Truthy(mob) then
      match NormalizeMobile(mob)
      case None => Fail(400, InvalidMobFormat)
      case Some(m) => Listing(Select(t, ByMobile(m)))
    else if Truthy(managerId) then
      Listing(Select(t, ByManager(StringOf(managerId))))
    else Listing(t)
  }

  // ---------------------------------------------------------------------
  // deleteUser

  /** `deleteUser`: hard-deletes every row, active or not, whose user id (when
      given) or normalised mobile number matches; 404 when nothing matched. */
  function DeleteUser(t: Table, body: Body): (r: Transition)
    ensures !Truthy(Get(body, "user_id")) && !Truthy(Get(body, "mob_num")) ==>
      r == Transition(t, Fail(400, ProvideIdOrMob))
    ensures !Truthy(Get(body, "user_id")) && Truthy(Get(body, "mob_num")) && NormalizeMobile(Get(body, "mob_num")).None? ==>
      r == Transition(t, Fail(400, InvalidMobFormat))
    ensures r.response.Status() == 404 ==> r.table == t && r.response == Fail(404, UserNotFound)
    ensures Truthy(Get(body, "user_id")) ==>
      && (forall row :: multiset(r.table)[row] ==
            if row.userId == StringOf(Get(body, "user_id")) then 0 else multiset(t)[row])
      && (r.response.Fail? <==> forall row :: row in t ==> row.userId != StringOf(Get(body, "user_id")))
      && r.response == (if r.response.Fail? then Fail(404, UserNotFound) else Ok(UserDeleted))
    ensures !Truthy(Get(body, "user_id")) && NormalizeMobile(Get(body, "mob_num")).Some? ==>
      && (forall row :: multiset(r.table)[row] ==
            if Some(row.mobNum) == NormalizeMobile(Get(body, "mob_num")) then 0 else multiset(t)[row])
      && (r.response.Fail? <==> forall row :: row in t ==> Some(row.mobNum) != NormalizeMobile(Get(body, "mob_num")))
      && r.response == (if r.response.Fail? then Fail(404, UserNotFound) else Ok(UsersDeleted))
  {
    var userId, mob := Get(body, "user_id"), Get(body, "mob_num");
    if !Truthy(userId) && !Truthy(mob) then Transition(t, Fail(400, ProvideIdOrMob))
    else if Truthy(userId) then DeleteWhere(t, ByUserId(StringOf(userId)), UserDeleted)
    else match NormalizeMobile(mob)
      case None => Transition(t, Fail(400, InvalidMobFormat))
      case Some(m) => DeleteWhere(t, ByMobile(m), UsersDeleted)
  }

  /** Runs the DELETE and turns `result.changes === 0` into a 404. */
  function DeleteWhere(t: Table, f: Filter, done: string): (r: Transition)
    ensures forall row :: multiset(r.table)[row] == if Matches(f, row) then 0 else multiset(t)[row]
    ensures r.response.Fail? <==> forall row :: row in t ==> !Matches(f, row)
    ensures r.response.Fail? ==> r == Transition(t, Fail(404, UserNotFound))
    ensures !r.response.Fail? ==> r.response == Ok(done) && |r.table| < |t|
  {
    var kept := Remove(t, f);
    RemoveNothingIff(t, f);
    if |kept| == |t| then Transition(kept, Fail(404, UserNotFound))
    else Transition(kept, Ok(done))
  }

  // ---------------------------------------------------------------------
  // updateUser

  /** The body of `/update_user`: `user_ids` when it is an array of ids
      (`None` for anything that is not an array), and `update_data`. */
  datatype UpdateRequest = UpdateRequest(userIds: Option<seq<string>>, updateData: Body)

  /** What `validateUpdateData` guarantees about the types of the fields the
      per-id loop dereferences: `full_name` and `manager_id` are strings when present. */
  predicate FieldsTyped(data: Body) {
    && data.Object?
    && (Get(data, "full_name").Undefined? || Get(data, "full_name").Str?)
    && (Get(data, "manager_id").Undefined? || Get(data, "manager_id").Str?)
  }

  /** The fields of `update_data` the loop reads: `None` when a field is
      absent; for `mob_num` and `pan_num`, the normaliser's result when present.
      The handler re-reads them for every id; they are pure, so reading them
      once gives the same values. */
  datatype UpdateFields = UpdateFields(
    fullName: Option<string>,
    mobNum: Option<Option<string>>,
    panNum: Option<Option<string>>,
    managerId: Option<string>)

  function ReadUpdate(data: Body): (u: UpdateFields)
    requires FieldsTyped(data)
    ensures u.fullName.None? <==> Get(data, "full_name") == Undefined
    ensures u.fullName.Some? ==> Get(data, "full_name") == Str(u.fullName.value)
    ensures u.mobNum.None? <==> Get(data, "mob_num") == Undefined
    ensures u.mobNum.Some? ==> u.mobNum.value == NormalizeMobile(Get(data, "mob_num"))
    ensures u.panNum.None? <==> Get(data, "pan_num") == Undefined
    ensures u.panNum.Some? ==> u.panNum.value == NormalizePan(Get(data, "pan_num"))
    ensures u.managerId.None? <==> Get(data, "manager_id") == Undefined
    ensures u.managerId.Some? ==> Get(data, "manager_id") == Str(u.managerId.value)
  {
    var full, mob, pan, mgr := Get(data, "full_name"), Get(data, "mob_num"), Get(data, "pan_num"), Get(data, "manager_id");
    UpdateFields(
      if full == Undefined then None else Some(full.s),
      if mob == Undefined then None else Some(NormalizeMobile(mob)),
      if pan == Undefined then None else Some(NormalizePan(pan)),
      if mgr == Undefined then None else Some(mgr.s))
  }

  /** The result of handling one id inside the loop: carry on with the new
      table, or return from the handler with this reply. */
  datatype Step = Continue(table: Table) | Stop(table: Table, response: Response)

  /** Whether the id takes the history-forking branch: `manager_id` is given
      and differs from the active row's manager. */
  predicate ChangesManager(u: UpdateFields, user: Row) {
    u.managerId.Some? && u.managerId.value != user.managerId
  }

  /** The columns the in-place branch writes, or the reply it fails with. */
  function InPlaceEdits(u: UpdateFields): (r: Result<Edits, string>)
    ensures r.Failure? <==>
      (u.fullName.Some? && !IsNonEmptyString(Str(u.fullName.value))) || u.mobNum == Some(None) || u.panNum == Some(None)
    ensures u.fullName.Some? && !IsNonEmptyString(Str(u.fullName.value)) ==> r == Failure(InvalidFullName)
    ensures r.Failure? && r != Failure(InvalidFullName) ==>
      r == (if u.mobNum == Some(None) then Failure(InvalidMobNum) else Failure(InvalidPanNum))
    ensures r.Success? ==>
      && (r.value.fullName.Some? <==> u.fullName.Some?)
      && (u.fullName.Some? ==>
            r.value.fullName.value == Trim(u.fullName.value) && IsNonEmptyString(Str(r.value.fullName.value)))
      && (u.mobNum.None? ==> r.value.mobNum.None?)
      && (u.mobNum.Some? ==> r.value.mobNum.Some? && r.value.mobNum == u.mobNum.value)
      && (u.panNum.None? ==> r.value.panNum.None?)
      && (u.panNum.Some? ==> r.value.panNum.Some? && r.value.panNum == u.panNum.value)
      && (r.value.Empty() <==> u.fullName.None? && u.mobNum.None? && u.panNum.None?)
  {
    assert u.fullName.Some? && IsNonEmptyString(Str(u.fullName.value)) ==>
      IsNonEmptyString(Str(Trim(u.fullName.value))) by {
      if u.fullName.Some? && IsNonEmptyString(Str(u.fullName.value)) {
        TrimmedNameValid(u.fullName.value);
      }
    }
    if u.fullName.Some? && !IsNonEmptyString(Str(u.fullName.value)) then Failure(InvalidFullName)
    else if u.mobNum.Some? && u.mobNum.value.None? then Failure(InvalidMobNum)
    else if u.panNum.Some? && u.panNum.value.None? then Failure(InvalidPanNum)
    else Success(Edits(
      if u.fullName.Some? then Some(Trim(u.fullName.value)) else None,
      if u.mobNum.Some? then u.mobNum.value else None,
      if u.panNum.Some? then u.panNum.value else None))
  }

  /** The fields of the successor row of the fork branch: each from
      `update_data` when present, otherwise inherited from the old active row. */
  datatype Successor = Successor(fullName: string, mobNum: Option<string>, panNum: Option<string>)

  function SuccessorFields(u: UpdateFields, user: Row): Successor {
    Successor(
      if u.fullName.Some? then Trim(u.fullName.value) else user.fullName,
      if u.mobNum.Some? then u.mobNum.value else Some(user.mobNum),
      if u.panNum.Some? then u.panNum.value else Some(user.panNum))
  }

  /** JavaScript's `!x` for a string-or-null. */
  predicate Falsy(x: Option<string>) {
    x.None? || x.value == ""
  }

  /** The successor row of the fork branch: the fields of `SuccessorFields`,
      the new manager, and `created_at` inherited (the clock when that is empty). */
  function SuccessorRow(u: UpdateFields, user: Row, newManager: string, now: Timestamp): (row: Row)
    ensures row.userId == user.userId && row.isActive && row.managerId == newManager && row.updatedAt == now
    ensures user.createdAt != "" ==> row.createdAt == user.createdAt
    ensures user.createdAt == "" ==> row.createdAt == now
    ensures u.fullName.None? ==> row.fullName == user.fullName
    ensures u.fullName.Some? ==> row.fullName == Trim(u.fullName.value)
    ensures u.mobNum.None? ==> row.mobNum == user.mobNum
    ensures u.mobNum.Some? && u.mobNum.value.Some? ==> row.mobNum == u.mobNum.value.value
    ensures u.panNum.None? ==> row.panNum == user.panNum
    ensures u.panNum.Some? && u.panNum.value.Some? ==> row.panNum == u.panNum.value.value
    ensures SuccessorError(u, user).None? ==>
      IsNonEmptyString(Str(row.fullName)) && row.mobNum != "" && row.panNum != ""
  {
    var next := SuccessorFields(u, user);
    var createdAt := if user.createdAt != "" then user.createdAt else now;
    Row(user.userId, next.fullName, next.mobNum.GetOr(""), next.panNum.GetOr(""), newManager, createdAt, now, true)
  }

  /** The checks the fork branch makes on the successor's fields, in order. */
  function SuccessorError(u: UpdateFields, user: Row): (r: Option<string>)
    ensures var nameOk := if u.fullName.Some? then IsNonEmptyString(Str(u.fullName.value))
                          else IsNonEmptyString(Str(user.fullName));
      var mobOk := if u.mobNum.Some? then !Falsy(u.mobNum.value) else user.mobNum != "";
      var panOk := if u.panNum.Some? then !Falsy(u.panNum.value) else user.panNum != "";
      && (r == Some(InvalidFullName) <==> !nameOk)
      && (r == Some(InvalidMobNum) <==> nameOk && !mobOk)
      && (r == Some(InvalidPanNum) <==> nameOk && mobOk && !panOk)
      && (r.None? <==> nameOk && mobOk && panOk)
  {
    var next := SuccessorFields(u, user);
    assert u.fullName.Some? ==> Trim(Trim(u.fullName.value)) == Trim(u.fullName.value) by {
      if u.fullName.Some? {
        TrimIdempotent(u.fullName.value);
      }
    }
    if !IsNonEmptyString(Str(next.fullName)) then Some(InvalidFullName)
    else if Falsy(next.mobNum) then Some(InvalidMobNum)
    else if Falsy(next.panNum) then Some(InvalidPanNum)
    else None
  }

  /** The fork branch for one user whose active row is `user`: the new
      manager must be active before anything is written. */
  function ForkStep(t: Table, managers: Managers, u: UpdateFields, user: Row, now: Timestamp): (s: Step)
    requires u.managerId.Some?
    ensures !ManagerActive(managers, u.managerId.value) ==> s == Stop(t, Fail(400, ManagerNotFound))
    ensures s.Continue? <==> ManagerActive(managers, u.managerId.value) && SuccessorError(u, user).None?
    ensures ManagerActive(managers, u.managerId.value) && s.Stop? ==>
      s.response == Fail(400, SuccessorError(u, user).value) && ActiveCount(s.table, user.userId) == 0
    ensures s.Continue? ==>
      && |s.table| == |t| + 1
      && s.table[|t|] == SuccessorRow(u, user, u.managerId.value, now)
      && ActiveCount(s.table, user.userId) == 1
    ensures |s.table| >= |t|
    ensures forall i :: 0 <= i < |t| && t[i].userId != user.userId ==> s.table[i] == t[i]
    ensures forall v :: v != user.userId ==> ActiveCount(s.table, v) == ActiveCount(t, v)
  {
    var newManager := u.managerId.value;
    if !ManagerActive(managers, newManager) then Stop(t, Fail(400, ManagerNotFound))
    else ForkSuccessor(t, u, user, newManager, now)
  }

  /** The fork branch once the manager is known to be active: every row of
      the user is deactivated before the successor row is checked, so a
      rejected successor leaves the user with no active row. */
  function ForkSuccessor(t: Table, u: UpdateFields, user: Row, newManager: string, now: Timestamp): (s: Step)
    ensures s.Continue? <==> SuccessorError(u, user).None?
    ensures s.Stop? ==> s.response == Fail(400, SuccessorError(u, user).value)
    ensures |s.table| == if s.Continue? then |t| + 1 else |t|
    ensures s.Continue? ==> s.table[|t|] == SuccessorRow(u, user, newManager, now)
    ensures forall i :: 0 <= i < |t| && t[i].userId != user.userId ==> s.table[i] == t[i]
    ensures forall i :: 0 <= i < |t| && t[i].userId == user.userId ==>
      !s.table[i].isActive && SameDetails(s.table[i], t[i]) && s.table[i].updatedAt == now
    ensures ActiveCount(s.table, user.userId) == if s.Continue? then 1 else 0
    ensures forall v :: v != user.userId ==> ActiveCount(s.table, v) == ActiveCount(t, v)
  {
    var d := Deactivate(t, user.userId, now);
    match SuccessorError(u, user)
    case Some(msg) => Stop(d, Fail(400, msg))
    case None =>
      var row := SuccessorRow(u, user, newManager, now);
      ActiveCountAppendEach(d, row);
      Continue(d + [row])
  }

  /** The in-place branch for user `uid`: nothing to write means nothing changes. */
  function InPlaceStep(t: Table, u: UpdateFields, uid: string, now: Timestamp): (s: Step)
    ensures s.Stop? <==> InPlaceEdits(u).Failure?
    ensures s.Stop? ==> s == Stop(t, Fail(400, InPlaceEdits(u).error))
    ensures u.fullName.None? && u.mobNum.None? && u.panNum.None? ==> s == Continue(t)
    ensures |s.table| == |t|
    ensures forall i :: 0 <= i < |t| && !(t[i].userId == uid && t[i].isActive) ==> s.table[i] == t[i]
    ensures forall v :: ActiveCount(s.table, v) == ActiveCount(t, v)
  {
    match InPlaceEdits(u)
    case Failure(msg) => Stop(t, Fail(400, msg))
    case Success(e) => if e.Empty() then Continue(t) else Continue(EditActive(t, uid, e, now))
  }

  /** One iteration of the `for (const uid of user_ids)` loop. */
  function ProcessId(t: Table, managers: Managers, u: UpdateFields, uid: string, now: Timestamp): (s: Step)
    ensures ActiveCount(t, uid) == 0 ==> s == Stop(t, Fail(404, UserNotFoundFor(uid)))
    ensures s.Stop? && s.response.Status() == 404 ==> ActiveCount(t, uid) == 0
    ensures s.Stop? ==> s.response.Fail?
  {
    match FirstActive(t, uid)
    case None => Stop(t, Fail(404, UserNotFoundFor(uid)))
    case Some(k) =>
      if ChangesManager(u, t[k]) then ForkStep(t, managers, u, t[k], now)
      else InPlaceStep(t, u, uid, now)
  }

  /** The loop over `user_ids`: the first id that stops the loop decides the
      reply; ids before it keep their effects, ids after it are not visited. */
  function ProcessIds(t: Table, managers: Managers, u: UpdateFields, ids: seq<string>, now: Timestamp): (r: Transition)
    ensures r.response.Ok? || r.response.Fail?
    ensures r.response.Ok? ==> r.response == Ok(UpdatesCompleted)
    decreases |ids|
  {
    if ids == [] then Transition(t, Ok(UpdatesCompleted))
    else match ProcessId(t, managers, u, ids[0], now)
      case Stop(t', resp) => Transition(t', resp)
      case Continue(t') => ProcessIds(t', managers, u, ids[1..], now)
  }

  /** Whether `update_data` has exactly the one key `manager_id`. */
  function OnlyManagerKey(data: Body): (b: bool)
    ensures b ==>
      && data.Object? && "manager_id" in data.fields
      && Get(data, "full_name") == Undefined && Get(data, "mob_num") == Undefined && Get(data, "pan_num") == Undefined
    ensures data.Object? && "manager_id" in data.fields && (forall k :: k in data.fields ==> k == "manager_id") ==> b
  {
    data.Object? && data.fields.Keys == {"manager_id"}
  }

  /** `updateUser`. */
  function UpdateUser(t: Table, managers: Managers, uuidOk: UuidCheck, req: UpdateRequest, now: Timestamp): (r: Transition)
    ensures req.userIds.None? || req.userIds.value == [] || ValidateUpdateData(uuidOk, req.updateData).Some? ==>
      r.table == t && r.response.Fail? && r.response.status == 400
  {
    if req.userIds.None? || req.userIds.value == [] then Transition(t, Fail(400, UserIdsRequired))
    else match ValidateUpdateData(uuidOk, req.updateData)
      case Some(msg) => Transition(t, Fail(400, msg))
      case None =>
        var data, ids := req.updateData, req.userIds.value;
        if OnlyManagerKey(data) then
          match Get(data, "manager_id")
          case Str(newManager) =>
            if !ManagerActive(managers, newManager) then Transition(t, Fail(400, ManagerNotFound))
            else Transition(Reassign(t, ids, newManager, now), Ok(ManagerUpdated))
          // an explicit `undefined` value binds as NULL and matches no manager
          case _ => Transition(t, Fail(400, ManagerNotFound))
        else ProcessIds(t, managers, ReadUpdate(data), ids, now)
  }
}

=== FILE: users.dfy ===
/**
 * The `users` and `managers` tables of db/db.js as immutable values, and the
 * row-level statements the controller issues against them.
 */
module Users {
  import opened Wrappers

  /** An ISO-8601 timestamp produced by `new Date().toISOString()`. */
  type Timestamp = string

  /** One row of the `users` table. The surrogate `id` column is left out:
      rows are appended in `id` order and deletions keep the order of the
      rest, so a row's position in the table orders rows as `id` does. */
  datatype Row = Row(
    userId: string,
    fullName: string,
    mobNum: string,
    panNum: string,
    managerId: string,
    createdAt: Timestamp,
    updatedAt: Timestamp,
    isActive: bool)

  /** The `users` table in insertion order. `userId` is not unique: older
      versions of a user stay behind as inactive rows. */
  type Table = seq<Row>

  /** The `managers` table: manager id to its `is_active` flag. */
  type Managers = map<string, bool>

  /** `SELECT ... FROM managers WHERE manager_id = ? AND is_active = 1` finds a row. */
  function ManagerActive(managers: Managers, id: string): (b: bool)
    ensures b ==> id in managers && managers[id]
    ensures id !in managers ==> !b
  {
    id in managers && managers[id]
  }

  /** How many active rows carry `uid`. */
  function ActiveCount(t: Table, uid: string): nat {
    if t == [] then 0
    else (if t[0].userId == uid && t[0].isActive then 1 else 0) + ActiveCount(t[1..], uid)
  }

  /** The history invariant: each user id has at most one active row. */
  ghost predicate AtMostOneActive(t: Table) {
    forall uid :: ActiveCount(t, uid) <= 1
  }

  /** `SELECT * FROM users WHERE user_id = ? AND is_active = 1`, first row in
      table order: the position of the first active row of `uid`. */
  function FirstActive(t: Table, uid: string): (r: Option<nat>)
    ensures r.None? <==> ActiveCount(t, uid) == 0
    ensures r.Some? ==> && r.value < |t|
                        && t[r.value].userId == uid && t[r.value].isActive
                        && forall j :: 0 <= j < r.value ==> !(t[j].userId == uid && t[j].isActive)
  {
    if t == [] then None
    else if t[0].userId == uid && t[0].isActive then Some(0)
    else match FirstActive(t[1..], uid)
      case None => None
      case Some(k) => Some(k + 1)
  }

  // ---------------------------------------------------------------------
  // Row filters: the WHERE clauses of SELECT and DELETE

  datatype Filter = ByUserId(userId: string) | ByMobile(mobNum: string) | ByManager(managerId: string)

  predicate Matches(f: Filter, row: Row) {
    match f
    case ByUserId(id) => row.userId == id
    case ByMobile(mob) => row.mobNum == mob
    case ByManager(id) => row.managerId == id
  }

  /** `SELECT * FROM users WHERE ...`: the matching rows, in table order. */
  function Select(t: Table, f: Filter): (r: Table)
    ensures |r| <= |t|
    ensures forall row :: multiset(r)[row] == if Matches(f, row) then multiset(t)[row] else 0
  {
    if t == [] then []
    else
      assert t == [t[0]] + t[1..];
      (if Matches(f, t[0]) then [t[0]] else []) + Select(t[1..], f)
  }

  /** `DELETE FROM users WHERE ...`: the rows that survive, in table order. */
  function Remove(t: Table, f: Filter): (r: Table)
    ensures |r| <= |t|
    ensures forall row :: multiset(r)[row] == if Matches(f, row) then 0 else multiset(t)[row]
  {
    if t == [] then []
    else
      assert t == [t[0]] + t[1..];
      (if Matches(f, t[0]) then [] else [t[0]]) + Remove(t[1..], f)
  }

  // ---------------------------------------------------------------------
  // Row updates: the UPDATE statements of the controller

  /** The values an in-place update writes; `None` leaves a column alone. */
  datatype Edits = Edits(fullName: Option<string>, mobNum: Option<string>, panNum: Option<string>) {
    predicate Empty() {
      fullName.None? && mobNum.None? && panNum.None?
    }
  }

  function Overwrite(current: string, edit: Option<string>): string {
    if edit.Some? then edit.value else current
  }

  function EditRow(row: Row, e: Edits, now: Timestamp): Row {
    row.(fullName := Overwrite(row.fullName, e.fullName),
         mobNum := Overwrite(row.mobNum, e.mobNum),
         panNum := Overwrite(row.panNum, e.panNum),
         updatedAt := now)
  }

  /** Whether two rows hold the same name, mobile and PAN. */
  predicate SameDetails(a: Row, b: Row) {
    a.fullName == b.fullName && a.mobNum == b.mobNum && a.panNum == b.panNum
  }

  /** `UPDATE users SET <edited columns>, updated_at = ? WHERE user_id = ? AND is_active = 1`,
      row by row. */
  function EditActive(t: Table, uid: string, e: Edits, now: Timestamp): (r: Table)
    ensures |r| == |t|
    ensures forall i :: 0 <= i < |t| && !(t[i].userId == uid && t[i].isActive) ==> r[i] == t[i]
    ensures forall i :: 0 <= i < |t| && t[i].userId == uid && t[i].isActive ==>
      && r[i].userId == uid && r[i].isActive
      && r[i].managerId == t[i].managerId && r[i].createdAt == t[i].createdAt && r[i].updatedAt == now
      && r[i].fullName == (if e.fullName.Some? then e.fullName.value else t[i].fullName)
      && r[i].mobNum == (if e.mobNum.Some? then e.mobNum.value else t[i].mobNum)
      && r[i].panNum == (if e.panNum.Some? then e.panNum.value else t[i].panNum)
    ensures forall v :: ActiveCount(r, v) == ActiveCount(t, v)
  {
    if t == [] then []
    else
      var head := if t[0].userId == uid && t[0].isActive then EditRow(t[0], e, now) else t[0];
      var rest := EditActive(t[1..], uid, e, now);
      assert ([head] + rest)[1..] == rest;
      [head] + rest
  }

  /** `UPDATE users SET is_active = 0, updated_at = ? WHERE user_id = ?`, row by
      row: every row of `uid` is switched off, whether it was active or not. */
  function Deactivate(t: Table, uid: string, now: Timestamp): (r: Table)
    ensures |r| == |t|
    ensures forall i :: 0 <= i < |t| && t[i].userId != uid ==> r[i] == t[i]
    ensures forall i :: 0 <= i < |t| && t[i].userId == uid ==>
      && r[i].userId == uid && !r[i].isActive && r[i].updatedAt == now
      && SameDetails(r[i], t[i]) && r[i].managerId == t[i].managerId && r[i].createdAt == t[i].createdAt
    ensures ActiveCount(r, uid) == 0
    ensures forall v :: v != uid ==> ActiveCount(r, v) == ActiveCount(t, v)
  {
    if t == [] then []
    else
      var head := if t[0].userId == uid then t[0].(isActive := false, updatedAt := now) else t[0];
      var rest := Deactivate(t[1..], uid, now);
      assert ([head] + rest)[1..] == rest;
      [head] + rest
  }

  /** `UPDATE users SET manager_id = ?, updated_at = ? WHERE user_id IN (...)`,
      row by row: no `is_active` filter, so inactive rows are reassigned too. */
  function Reassign(t: Table, ids: seq<string>, managerId: string, now: Timestamp): (r: Table)
    ensures |r| == |t|
    ensures forall i :: 0 <= i < |t| && t[i].userId !in ids ==> r[i] == t[i]
    ensures forall i :: 0 <= i < |t| && t[i].userId in ids ==>
      && r[i].managerId == managerId && r[i].updatedAt == now
      && r[i].userId == t[i].userId && r[i].isActive == t[i].isActive
      && SameDetails(r[i], t[i]) && r[i].createdAt == t[i].createdAt
    ensures forall v :: ActiveCount(r, v) == ActiveCount(t, v)
  {
    if t == [] then []
    else
      var head := if t[0].userId in ids then t[0].(managerId := managerId, updatedAt := now) else t[0];
      var rest := Reassign(t[1..], ids, managerId, now);
      assert ([head] + rest)[1..] == rest;
      [head] + rest
  }

  // ---------------------------------------------------------------------
  // Lemmas about active rows

  /** A user has no active row exactly when no row of the table is an active row of it. */
  lemma {:induction false} ActiveCountZero(t: Table, uid: string)
    ensures ActiveCount(t, uid) == 0 <==> forall row :: row in t ==> !(row.userId == uid && row.isActive)
  {
    if t != [] {
      ActiveCountZero(t[1..], uid);
      assert forall row :: row in t <==> row == t[0] || row in t[1..];
    }
  }

  /** Appending a row adds one to its user's count when it is active. */
  lemma {:induction false} ActiveCountAppend(t: Table, row: Row, uid: string)
    ensures ActiveCount(t + [row], uid) ==
      ActiveCount(t, uid) + (if row.userId == uid && row.isActive then 1 else 0)
  {
    if t == [] {
      assert t + [row] == [row];
      assert [row][1..] == [];
    } else {
      assert (t + [row])[1..] == t[1..] + [row];
      ActiveCountAppend(t[1..], row, uid);
    }
  }

  /** `ActiveCountAppend` for every user id at once. */
  lemma ActiveCountAppendEach(t: Table, row: Row)
    ensures forall v :: ActiveCount(t + [row], v) == ActiveCount(t, v) + (if row.userId == v && row.isActive then 1 else 0)
  {
    forall v
      ensures ActiveCount(t + [row], v) == ActiveCount(t, v) + (if row.userId == v && row.isActive then 1 else 0)
    {
      ActiveCountAppend(t, row, v);
    }
  }

  /** Removing rows never adds active rows. */
  lemma {:induction false} RemoveCounts(t: Table, f: Filter, v: string)
    ensures ActiveCount(Remove(t, f), v) <= ActiveCount(t, v)
  {
    if t != [] {
      RemoveCounts(t[1..], f, v);
      var r := Remove(t, f);
      if Matches(f, t[0]) {
        assert r == Remove(t[1..], f);
      } else {
        assert r[0] == t[0];
        assert r[1..] == Remove(t[1..], f);
      }
    }
  }

  /** SELECT and DELETE with the same WHERE clause split the table. */
  lemma SelectRemovePartition(t: Table, f: Filter)
    ensures multiset(Select(t, f)) + multiset(Remove(t, f)) == multiset(t)
    ensures |Select(t, f)| + |Remove(t, f)| == |t|
  {
    var a, b := Select(t, f), Remove(t, f);
    assert forall row :: (multiset(a) + multiset(b))[row] == multiset(t)[row];
    assert multiset(a) + multiset(b) == multiset(t);
    assert |multiset(a) + multiset(b)| == |a| + |b|;
  }

  /** SELECT returns exactly the matching rows: a corollary of its multiplicities. */
  lemma SelectMembers(t: Table, f: Filter)
    ensures forall row :: row in Select(t, f) <==> row in t && Matches(f, row)
  {
  }

  /** DELETE keeps exactly the rows that do not match: a corollary of its multiplicities. */
  lemma RemoveMembers(t: Table, f: Filter)
    ensures forall row :: row in Remove(t, f) <==> row in t && !Matches(f, row)
  {
  }

  /** A DELETE that matches no row leaves the table as it was. */
  lemma RemoveNoMatch(t: Table, f: Filter)
    requires forall row :: row in t ==> !Matches(f, row)
    ensures Remove(t, f) == t
  {
    RemoveNoMatchAt(t, f);
  }

  lemma {:induction false} RemoveNoMatchAt(t: Table, f: Filter)
    requires forall i :: 0 <= i < |t| ==> !Matches(f, t[i])
    ensures Remove(t, f) == t
  {
    if t != [] {
      RemoveNoMatchAt(t[1..], f);
      assert Remove(t, f) == [t[0]] + Remove(t[1..], f);
    }
  }

  /** A DELETE removes no row exactly when no row matches, and then the
      table is unchanged. */
  lemma RemoveNothingIff(t: Table, f: Filter)
    ensures |Remove(t, f)| == |t| <==> forall row :: row in t ==> !Matches(f, row)
    ensures |Remove(t, f)| == |t| ==> Remove(t, f) == t
  {
    SelectRemovePartition(t, f);
    SelectMembers(t, f);
    if forall row :: row in t ==> !Matches(f, row) {
      RemoveNoMatch(t, f);
    } else {
      var row :| row in t && Matches(f, row);
      assert row in Select(t, f);
    }
  }
}

=== FILE: validators.dfy ===
/**
 * The validation and normalisation layer of utils/validators.js: total
 * functions that either return a normalised value or signal invalid input
 * with `None` (JavaScript `null`).
 */
module Validators {
  import opened Wrappers
  import opened Text
  import opened Json

  /** `uuid.validate` is outside this model; callers pass it as a predicate. */
  type UuidCheck = string -> bool

  /** A normalised mobile number: exactly ten decimal digits. */
  predicate IsMobile(s: string) {
    |s| == 10 && AllDigits(s)
  }

  /** A normalised PAN: five upper-case letters, four digits, one upper-case letter. */
  predicate IsPan(s: string) {
    && |s| == 10
    && (forall i :: 0 <= i < 5 ==> IsUpperLetter(s[i]))
    && (forall i :: 5 <= i < 9 ==> IsDigit(s[i]))
    && IsUpperLetter(s[9])
  }

  /** `isNonEmptyString`: a string holding at least one non-whitespace character. */
  function IsNonEmptyString(v: Value): (b: bool)
    ensures b <==> v.Str? && exists i :: 0 <= i < |v.s| && !IsWhitespace(v.s[i])
  {
    if v.Str? then TrimEmptyIff(v.s); |Trim(v.s)| > 0 else false
  }

  /** `isValidUUID`: a string accepted by the UUID check. */
  function IsValidUuid(uuidOk: UuidCheck, v: Value): (b: bool)
    ensures !v.Str? ==> !b
    ensures v.Str? ==> (b <==> uuidOk(v.s))
  {
    v.Str? && uuidOk(v.s)
  }

  /** The text pipeline of `normalizeMobile`: drop whitespace, one leading
      `+91`, one leading `0`, then every non-digit; keep exactly ten digits. */
  function NormalizeMobileText(s: string): (r: Option<string>)
    ensures r.Some? ==> IsMobile(r.value)
  {
    var digits := KeepDigits(StripPrefix(StripPrefix(RemoveWhitespace(s), "+91"), "0"));
    if |digits| == 10 then Some(digits) else None
  }

  /** `normalizeMobile`: a falsy input is rejected before any text processing. */
  function NormalizeMobile(raw: Value): (r: Option<string>)
    ensures !Truthy(raw) ==> r == None
    ensures r.Some? ==> IsMobile(r.value)
  {
    if !Truthy(raw) then None else NormalizeMobileText(StringOf(raw))
  }

  /** The text pipeline of `normalizePAN`: trim, upper-case, match the PAN shape. */
  function NormalizePanText(s: string): (r: Option<string>)
    ensures r.Some? ==> IsPan(r.value)
  {
    var pan := Upper(Trim(s));
    if IsPan(pan) then Some(pan) else None
  }

  /** `normalizePAN`: a falsy input is rejected before any text processing. */
  function NormalizePan(raw: Value): (r: Option<string>)
    ensures !Truthy(raw) ==> r == None
    ensures r.Some? ==> IsPan(r.value)
  {
    if !Truthy(raw) then None else NormalizePanText(StringOf(raw))
  }

  // ---------------------------------------------------------------------
  // First-failure-wins validation

  /** One validation step: whether it passed, and the message it reports if not. */
  datatype Check = Check(ok: bool, message: string)

  /** The message of the first failing check, or `None` when every check passes. */
  function FirstFailure(checks: seq<Check>): (r: Option<string>)
    ensures r.None? <==> forall i :: 0 <= i < |checks| ==> checks[i].ok
    ensures r.Some? ==> exists k :: 0 <= k < |checks| && !checks[k].ok && checks[k].message == r.value
                                    && forall j :: 0 <= j < k ==> checks[j].ok
  {
    if checks == [] then None
    else if !checks[0].ok then Some(checks[0].message)
    else FirstFailure(checks[1..])
  }

  const PayloadRequired := "Payload is required"
  const FullNameEmpty := "full_name must not be empty"
  const CreateMobileInvalid := "mob_num must be a valid 10-digit mobile number (supports +91 or 0 prefix)"
  const CreatePanInvalid := "pan_num must be a valid PAN (e.g., ABCDE1234F)"
  const ManagerIdInvalid := "manager_id must be a valid UUID"
  const UpdateDataRequired := "update_data is required"
  const UpdateMobileInvalid := "mob_num must be a valid 10-digit mobile number"
  const UpdatePanInvalid := "pan_num must be a valid PAN"

  /** `validateCreatePayload`: the payload must be an object, then full_name,
      mob_num, pan_num and manager_id are checked in that order and the first
      failing check's message is returned. */
  function ValidateCreatePayload(uuidOk: UuidCheck, payload: Body): (r: Option<string>)
    ensures r.None? <==>
      && payload.Object?
      && IsNonEmptyString(Get(payload, "full_name"))
      && NormalizeMobile(Get(payload, "mob_num")).Some?
      && NormalizePan(Get(payload, "pan_num")).Some?
      && IsValidUuid(uuidOk, Get(payload, "manager_id"))
  {
    if payload.NotObject? then Some(PayloadRequired)
    else if !IsNonEmptyString(Get(payload, "full_name")) then Some(FullNameEmpty)
    else if NormalizeMobile(Get(payload, "mob_num")).None? then Some(CreateMobileInvalid)
    else if NormalizePan(Get(payload, "pan_num")).None? then Some(CreatePanInvalid)
    else if !IsValidUuid(uuidOk, Get(payload, "manager_id")) then Some(ManagerIdInvalid)
    else None
  }

  /** The checks of `validateCreatePayload`, in source order. */
  function CreateChecks(uuidOk: UuidCheck, payload: Body): seq<Check> {
    [ Check(payload.Object?, PayloadRequired),
      Check(IsNonEmptyString(Get(payload, "full_name")), FullNameEmpty),
      Check(NormalizeMobile(Get(payload, "mob_num")).Some?, CreateMobileInvalid),
      Check(NormalizePan(Get(payload, "pan_num")).Some?, CreatePanInvalid),
      Check(IsValidUuid(uuidOk, Get(payload, "manager_id")), ManagerIdInvalid) ]
  }

  /** A field of `update_data` passes when it is absent or satisfies the
      predicate that creation uses for it. */
  predicate AbsentOr(v: Value, valid: bool) {
    v == Undefined || valid
  }

  /** `validateUpdateData`: `update_data` must be an object; each of the four
      editable fields is checked only when present, in the same order. */
  function ValidateUpdateData(uuidOk: UuidCheck, data: Body): (r: Option<string>)
    ensures r.None? <==>
      && data.Object?
      && AbsentOr(Get(data, "full_name"), IsNonEmptyString(Get(data, "full_name")))
      && AbsentOr(Get(data, "mob_num"), NormalizeMobile(Get(data, "mob_num")).Some?)
      && AbsentOr(Get(data, "pan_num"), NormalizePan(Get(data, "pan_num")).Some?)
      && AbsentOr(Get(data, "manager_id"), IsValidUuid(uuidOk, Get(data, "manager_id")))
    ensures data == Object(map[]) ==> r == None
  {
    if data.NotObject? then Some(UpdateDataRequired)
    else if Get(data, "full_name") != Undefined && !IsNonEmptyString(Get(data, "full_name")) then Some(FullNameEmpty)
    else if Get(data, "mob_num") != Undefined && NormalizeMobile(Get(data, "mob_num")).None? then Some(UpdateMobileInvalid)
    else if Get(data, "pan_num") != Undefined && NormalizePan(Get(data, "pan_num")).None? then Some(UpdatePanInvalid)
    else if Get(data, "manager_id") != Undefined && !IsValidUuid(uuidOk, Get(data, "manager_id")) then Some(ManagerIdInvalid)
    else None
  }

  /** The checks of `validateUpdateData`, in source order. */
  function UpdateChecks(uuidOk: UuidCheck, data: Body): seq<Check> {
    var full := Get(data, "full_name");
    var mob := Get(data, "mob_num");
    var pan := Get(data, "pan_num");
    var mgr := Get(data, "manager_id");
    [ Check(data.Object?, UpdateDataRequired),
      Check(AbsentOr(full, IsNonEmptyString(full)), FullNameEmpty),
      Check(AbsentOr(mob, NormalizeMobile(mob).Some?), UpdateMobileInvalid),
      Check(AbsentOr(pan, NormalizePan(pan).Some?), UpdatePanInvalid),
      Check(AbsentOr(mgr, IsValidUuid(uuidOk, mgr)), ManagerIdInvalid) ]
  }

  /** Unrolls `FirstFailure` over a list of five checks. */
  lemma FirstFailureOfFive(cs: seq<Check>)
    requires |cs| == 5
    ensures FirstFailure(cs) ==
      if !cs[0].ok then Some(cs[0].message)
      else if !cs[1].ok then Some(cs[1].message)
      else if !cs[2].ok then Some(cs[2].message)
      else if !cs[3].ok then Some(cs[3].message)
      else if !cs[4].ok then Some(cs[4].message)
      else None
  {
    assert cs[1..][1..] == cs[2..];
    assert cs[2..][1..] == cs[3..];
    assert cs[3..][1..] == cs[4..];
    assert cs[4..][1..] == [];
  }

  /** `validateCreatePayload` reports the first failing check of its list. */
  lemma CreatePayloadFirstFailure(uuidOk: UuidCheck, payload: Body)
    ensures ValidateCreatePayload(uuidOk, payload) == FirstFailure(CreateChecks(uuidOk, payload))
  {
    FirstFailureOfFive(CreateChecks(uuidOk, payload));
  }

  /** `validateUpdateData` reports the first failing check of its list. */
  lemma UpdateDataFirstFailure(uuidOk: UuidCheck, data: Body)
    ensures ValidateUpdateData(uuidOk, data) == FirstFailure(UpdateChecks(uuidOk, data))
  {
    FirstFailureOfFive(UpdateChecks(uuidOk, data));
  }

  // ---------------------------------------------------------------------
  // Properties of the normalisers

  /** A normalised mobile number is a fixed point of the text clean-up steps. */
  lemma MobileCleanupNoop(d: string)
    requires IsMobile(d)
    ensures RemoveWhitespace(d) == d && KeepDigits(d) == d
  {
    RemoveWhitespaceNoop(d);
    KeepDigitsNoop(d);
  }

  /** Ten digits not starting with `0` are accepted unchanged. */
  lemma MobileAcceptsBare(d: string)
    requires IsMobile(d) && d[0] != '0'
    ensures NormalizeMobileText(d) == Some(d)
  {
    MobileCleanupNoop(d);
    assert StripPrefix(d, "+91") == d;
    assert StripPrefix(d, "0") == d;
  }

  /** The `+91` country code is removed. */
  lemma MobileAcceptsCountryCode(d: string)
    requires IsMobile(d) && d[0] != '0'
    ensures NormalizeMobileText("+91" + d) == Some(d)
  {
    var s := "+91" + d;
    assert NoWhitespace(s) by {
      assert forall i :: 3 <= i < |s| ==> s[i] == d[i - 3];
    }
    RemoveWhitespaceNoop(s);
    assert StripPrefix(s, "+91") == d;
    assert StripPrefix(d, "0") == d;
    KeepDigitsNoop(d);
  }

  /** Separators without digits, such as `-`, `.` or `(...)`, are dropped with
      every other non-digit, wherever they sit between the digits. */
  lemma MobileIgnoresSeparators(a: string, sep: string, b: string)
    requires AllDigits(a) && AllDigits(b) && |a| + |b| == 10
    requires a != [] && a[0] != '0'
    requires NoDigits(sep)
    ensures NormalizeMobileText(a + sep + b) == Some(a + b)
  {
    var w := a + RemoveWhitespace(sep) + b;
    assert RemoveWhitespace(a + sep + b) == w by {
      RemoveWhitespaceAppend(a + sep, b);
      RemoveWhitespaceAppend(a, sep);
      RemoveWhitespaceNoop(a);
      RemoveWhitespaceNoop(b);
    }
    assert StripPrefix(StripPrefix(w, "+91"), "0") == w by {
      assert w[0] == a[0] && IsDigit(w[0]);
    }
    assert KeepDigits(w) == a + b by {
      KeepDigitsAppend(a + RemoveWhitespace(sep), b);
      KeepDigitsAppend(a, RemoveWhitespace(sep));
      KeepDigitsOfNoDigits(sep);
      KeepDigitsNoop(a);
      KeepDigitsNoop(b);
      assert a + [] == a;
    }
  }

  /** `98765-43210` normalises to `9876543210`. */
  lemma MobileSeparatorExample()
    ensures NormalizeMobileText("98765-43210") == Some("9876543210")
  {
    MobileIgnoresSeparators("98765", "-", "43210");
    assert "98765" + "-" + "43210" == "98765-43210";
    assert "98765" + "43210" == "9876543210";
  }

  /** Whitespace anywhere in the input is ignored: deleting a run of it
      leaves the result unchanged. */
  lemma MobileIgnoresWhitespace(a: string, w: string, b: string)
    requires AllWhitespace(w)
    ensures NormalizeMobileText(a + w + b) == NormalizeMobileText(a + b)
  {
    RemoveWhitespaceAppend(a + w, b);
    RemoveWhitespaceAppend(a, w);
    RemoveWhitespaceAppend(a, b);
    RemoveAllWhitespace(w);
    assert RemoveWhitespace(a + w + b) == RemoveWhitespace(a + b);
  }

  /** ... also when a space separates it from the number. */
  lemma MobileAcceptsSpacedCountryCode(d: string)
    requires IsMobile(d) && d[0] != '0'
    ensures NormalizeMobileText("+91 " + d) == Some(d)
  {
    MobileIgnoresWhitespace("+91", " ", d);
    assert "+91" + " " + d == "+91 " + d;
    MobileAcceptsCountryCode(d);
  }

  /** One trunk prefix `0` is removed, whatever the ten digits after it. */
  lemma MobileAcceptsTrunkPrefix(d: string)
    requires IsMobile(d)
    ensures NormalizeMobileText("0" + d) == Some(d)
  {
    var s := "0" + d;
    assert AllDigits(s) by {
      assert forall i :: 1 <= i < |s| ==> s[i] == d[i - 1];
    }
    assert NoWhitespace(s);
    RemoveWhitespaceNoop(s);
    assert StripPrefix(s, "+91") == s;
    assert StripPrefix(s, "0") == d;
    KeepDigitsNoop(d);
  }

  /** Ten digits starting with `0` are rejected: the `0` is stripped as a
      trunk prefix and only nine digits remain. */
  lemma MobileRejectsLeadingZero(d: string)
    requires IsMobile(d) && d[0] == '0'
    ensures NormalizeMobileText(d) == None
  {
    MobileCleanupNoop(d);
    assert StripPrefix(d, "+91") == d;
    assert StripPrefix(d, "0") == d[1..];
    KeepDigitsNoop(d[1..]);
  }

  /** Normalising a stored number again gives it back, unless it starts with `0`. */
  lemma MobileIdempotent(raw: Value, m: string)
    requires NormalizeMobile(raw) == Some(m) && m[0] != '0'
    ensures NormalizeMobile(Str(m)) == Some(m)
  {
    MobileAcceptsBare(m);
  }

  /** A number that normalises to one starting with `0` cannot be normalised
      again: `"00123456789"` is stored as `"0123456789"`, which is rejected. */
  lemma MobileNotIdempotentWithLeadingZero(d: string)
    requires d == "0123456789"
    ensures NormalizeMobile(Str("0" + d)) == Some(d)
    ensures NormalizeMobile(Str(d)) == None
  {
    assert IsMobile(d) && d[0] == '0';
    MobileAcceptsTrunkPrefix(d);
    MobileRejectsLeadingZero(d);
    assert StringOf(Str("0" + d)) == "0" + d;
  }

  /** `"+91 9876543210"`, `"09876543210"` and `"9876543210"` all normalise to
      `"9876543210"`; `"12345"` is rejected. */
  lemma MobileExamples(d: string, short: string)
    requires d == "9876543210" && short == "12345"
    ensures NormalizeMobile(Str("+91 " + d)) == Some(d)
    ensures NormalizeMobile(Str("0" + d)) == Some(d)
    ensures NormalizeMobile(Str(d)) == Some(d)
    ensures NormalizeMobile(Str(short)) == None
  {
    assert IsMobile(d) && d[0] != '0';
    assert AllDigits(short);
    MobileAcceptsBare(d);
    MobileAcceptsSpacedCountryCode(d);
    MobileAcceptsTrunkPrefix(d);
    ShortMobileRejected(short);
    assert StringOf(Str("+91 " + d)) == "+91 " + d;
    assert StringOf(Str("0" + d)) == "0" + d;
  }

  /** Five digits are too few, with or without a leading `0`. */
  lemma ShortMobileRejected(s: string)
    requires AllDigits(s) && |s| == 5
    ensures NormalizeMobileText(s) == None
  {
    RemoveWhitespaceNoop(s);
    assert StripPrefix(s, "+91") == s;
    var t := StripPrefix(s, "0");
    assert AllDigits(t) && |t| <= 5;
    KeepDigitsNoop(t);
  }

  /** A normalised PAN normalises to itself. */
  lemma PanIdempotent(raw: Value, p: string)
    requires NormalizePan(raw) == Some(p)
    ensures NormalizePan(Str(p)) == Some(p)
  {
    PanFixedPoint(p);
  }

  lemma PanFixedPoint(p: string)
    requires IsPan(p)
    ensures NormalizePan(Str(p)) == Some(p)
  {
    PanTextFixedPoint(p);
    assert |p| == 10 && p != "";
    assert Truthy(Str(p)) && StringOf(Str(p)) == p;
  }

  lemma PanTextFixedPoint(p: string)
    requires IsPan(p)
    ensures NormalizePanText(p) == Some(p)
  {
    PanIsNormal(p);
  }

  /** A PAN is already trimmed and upper-case. */
  lemma PanIsNormal(p: string)
    requires IsPan(p)
    ensures Trim(p) == p && Upper(p) == p
  {
    PanIsTrimmed(p);
    PanIsUpper(p);
  }

  lemma PanIsTrimmed(p: string)
    requires IsPan(p)
    ensures Trim(p) == p
  {
    assert !IsWhitespace(p[0]) && !IsWhitespace(p[9]);
    TrimNoop(p);
  }

  lemma PanIsUpper(p: string)
    requires IsPan(p)
    ensures Upper(p) == p
  {
    forall i | 0 <= i < |p|
      ensures Upper(p)[i] == p[i]
    {
    }
  }

  /** Letter case does not matter: inputs that agree once upper-cased normalise alike. */
  lemma PanIgnoresCase(s: string, s': string)
    requires Upper(s) == Upper(s')
    ensures NormalizePanText(s) == NormalizePanText(s')
  {
    TrimUpper(s);
    TrimUpper(s');
    UpperIdempotent(Trim(s));
    UpperIdempotent(Trim(s'));
    assert Upper(Trim(s)) == Upper(Trim(Upper(s)));
    assert Upper(Trim(s')) == Upper(Trim(Upper(s')));
  }

  /** Surrounding whitespace does not matter. */
  lemma PanIgnoresPadding(a: string, s: string, b: string)
    requires AllWhitespace(a) && AllWhitespace(b)
    ensures NormalizePanText(a + s + b) == NormalizePanText(s)
  {
    TrimPadded(a, s, b);
  }

  /** `"abcde1234f"` normalises to `"ABCDE1234F"`, and so does it padded with spaces. */
  lemma PanExamples(s: string, p: string)
    requires s == "abcde1234f" && p == "ABCDE1234F"
    ensures NormalizePan(Str(s)) == Some(p)
    ensures NormalizePan(Str(" " + s + " ")) == Some(p)
  {
    PanLowerCaseExample();
    var padded := " " + s + " ";
    PanIgnoresPadding(" ", s, " ");
    assert NormalizePanText(padded) == Some(p);
    assert |padded| == 12 && padded != "";
    assert Truthy(Str(padded)) && StringOf(Str(padded)) == padded;
    assert Truthy(Str(s)) && StringOf(Str(s)) == s;
  }

  lemma PanLowerCaseExample()
    ensures NormalizePanText("abcde1234f") == Some("ABCDE1234F")
  {
    var s, p := "abcde1234f", "ABCDE1234F";
    assert IsPan(p) && |s| == |p|;
    assert forall i :: 0 <= i < |s| ==> UpperChar(s[i]) == p[i];
    PanOfUpperCased(s, p);
  }

  /** `"ABCDE12345"` is rejected: its last character is a digit. */
  lemma PanRejectExample(bad: string)
    requires bad == "ABCDE12345"
    ensures NormalizePan(Str(bad)) == None
  {
    assert !IsWhitespace(bad[0]) && !IsWhitespace(bad[|bad| - 1]);
    TrimNoop(bad);
    PanRejectsDigitLast(bad);
  }

  /** An input that upper-cases character by character to a PAN normalises to it. */
  lemma PanOfUpperCased(s: string, p: string)
    requires IsPan(p) && |s| == |p|
    requires forall i :: 0 <= i < |s| ==> UpperChar(s[i]) == p[i]
    ensures NormalizePanText(s) == Some(p)
  {
    UpperPointwise(s, p);
    PanIsUpper(p);
    PanTextFixedPoint(p);
    PanIgnoresCase(s, p);
  }

  lemma UpperPointwise(s: string, p: string)
    requires |s| == |p|
    requires forall i :: 0 <= i < |s| ==> UpperChar(s[i]) == p[i]
    ensures Upper(s) == p
  {
  }

  /** An input that ends in a digit once trimmed is rejected, whatever its
      case or padding: upper-casing keeps the digit, and a PAN ends in a letter. */
  lemma PanRejectsDigitLast(s: string)
    requires Trim(s) != [] && IsDigit(Trim(s)[|Trim(s)| - 1])
    ensures NormalizePanText(s) == None
  {
    var t := Trim(s);
    assert Upper(t)[|t| - 1] == UpperChar(t[|t| - 1]);
  }

  /** `full_name.trim()` of a valid name is still a valid name. */
  lemma TrimmedNameValid(s: string)
    requires IsNonEmptyString(Str(s))
    ensures IsNonEmptyString(Str(Trim(s)))
  {
    TrimIdempotent(s);
  }
}

=== FILE: wrappers.dfy ===
/** The optional-value and result datatypes shared by the rest of the model. */
module Wrappers {

  /** A value that may be missing; stands for JavaScript's `null` results. */
  datatype Option<+T> = None | Some(value: T) {

    /** The value, or `default` when there is none. */
    function GetOr(default: T): T {
      if Some? then value else default
    }
  }

  /** Either a value or an error message. */
  datatype Result<+T, +E> = Success(value: T) | Failure(error: E)
}
